=== FILE: README.md ===
# ShareSkillHub course marketplace — a Dafny model

ShareSkillHub is a course marketplace. Instructors publish courses, and each course has content items (videos, PDFs, quizzes, resources). Students enroll, either free or through a PayPal payment. Students rate courses, and admins manage user roles. The backend is a set of Express handlers over three MongoDB collections: courses, users and ratings. The frontend is a React app with a course page, a course editor and a Redux authentication slice.

This project models the decision logic of that system as pure Dafny functions and proves properties about it.

- **Store and handlers.**
  - Each collection is a map from document id to record.
  - Each backend handler is a function from a store and its inputs to a reply plus the new store (`Models.Step`).
  - A gateway answer, an upload list, a generated id or a failed store write is an input to the function.
- **Schemas.**
  - The Course and Rating schemas are datatypes.
  - Each has a conformance predicate and a "build" function that applies the schema's setters and validators on save.
- **Handlers modelled.**
  - Enrollment: free enrollment, the membership check, PayPal order creation and capture (`Enrollment`).
  - Ratings (`Ratings`).
  - Course creation, view, update and delete (`Courses`).
  - Admin role changes and dashboard counts (`Admin`).
  - The Google sign-in callback and the session (de)serialisers (`GoogleAuth`).
- **Whole runs.** `BackendRuns` runs any sequence of the writing handlers and proves one store invariant over every such run:
  - enrollment lists have no duplicates and mirror each other (course ↔ student);
  - ratings conform to the schema and are unique per (user, course);
  - each average is the mean of the ratings its course lists.
- **Client side.**
  - The course editor's content-list state machine and its tag field (`ContentEditor`, `Tags`).
  - The course page's fetch handling, enroll click and render rules (`CourseDetailPage`).
  - The login/logout reducer (`AuthSlice`).

Prices are integer cents and the rating average is an exact `real`. A store write is atomic in the model.

**The controller reads a price field that does not exist.** The enrollment controller reads `course.price`. The Course schema declares `pricing` and no `price` path, so every stored course reads as having no price.

- The model keeps that read as `Course.price: Option<int>`. `CourseConforms` forces it to be absent.
- Two consequences are proved:
  - `enrollStudent` never takes its free branch (`Enrollment.EnrollNeverFreeOnSchemaCourses`);
  - `createPaypalOrder` on a schema course, for a student not yet enrolled, ends in the 500 of its catch block (`Enrollment.NoOrderOnSchemaCourses`); an enrolled student gets the already-enrolled 400 first. `undefined <= 0` is false, so the handler goes on and `undefined.toFixed` throws.

## Model

| member | source | states |
|---|---|---|
| Common.Trim | backend/src/models/Course.js:4-8 | The trim setter strips every character ECMAScript `trim` strips: all white space, including every Unicode space separator, and all line terminators. Its result has none of these at either end, is a contiguous part of the input, and is no longer than it. |
| Common.TrimIdempotent | backend/src/models/Course.js:4-8 | Trimming a trimmed value changes nothing, so re-saving a stored title, category or tag keeps it. |
| Common.RemoveAll | backend/src/controllers/courseController.js:159 | `$pull` leaves no copy of the value. Every other value stays present, and the length drops by the number of copies removed. |
| Common.Contains | frontend/src/components/CourseDetail.jsx:39 | `includes` holds exactly when the phrase occurs at some position of the message. |
| Models.ParseKind | backend/src/models/Course.js:37 | A content type string is accepted exactly when it names one of video, pdf, quiz or resource, and the accepted kind's name is that string. |
| Models.TrimAll | backend/src/models/Course.js:18-23 | Every tag is trimmed, in place and in order. |
| Models.BuildCourse | backend/src/models/Course.js:3-58 | Saving a new course succeeds exactly under these conditions: title and category are present and non-blank once trimmed, the description is present and non-empty, pricing is present and at least 0, and every content type is in the enum. A saved course conforms and keeps the trimmed title, category and tags. It also keeps the description as given, the pricing, the instructor and the content. It starts with average 0 and no ratings or students. |
| Models.BuildRating | backend/src/models/Rating.js:4-23 | Saving a rating succeeds exactly when the value is present and within [1, 5]. The saved rating keeps the user, course and value, and the comment is trimmed when given. |
| Enrollment.DualWrite | backend/src/controllers/enrollmentController.js:34-39 | The two pushes append the student to the course's list and the course to the student's list. Nothing else in the store changes. |
| Enrollment.DualWritePreserves | backend/src/controllers/enrollmentController.js:34-39 | From a consistent store, the dual write for a student not yet on the course keeps both lists duplicate-free and mirrored. |
| Enrollment.EnrollStudent | backend/src/controllers/enrollmentController.js:19-47 | The guards run in source order. A missing course or student is a 404, and an already-enrolled student is a 400; neither writes. Only a read price of exactly 0 enrolls: the store is then exactly the dual write, the student id appended to the course's list and the course id to the student's, with nothing else written. For a known student not yet on the course, any other price, absent included, is exactly the paid-course 400 with no write. |
| Enrollment.EnrollNeverFreeOnSchemaCourses | backend/src/controllers/enrollmentController.js:32-47 | On any course the schema accepted, `enrollStudent` never enrolls and never writes. |
| Enrollment.EnrollPreserves | backend/src/controllers/enrollmentController.js:27-41 | `enrollStudent` keeps the enrollment lists duplicate-free and mirrored. |
| Enrollment.EnrolledExactlyOnce | backend/src/controllers/enrollmentController.js:27-41 | After a successful enrollment from a consistent store, the student appears once on the course and the course appears once on the student. |
| Enrollment.CheckEnrollment | backend/src/controllers/enrollmentController.js:62-70 | A missing course is a 404. Otherwise the reply is exactly list membership of the student. |
| Enrollment.CheckAfterEnroll | backend/src/controllers/enrollmentController.js:32-41 | After a successful enrollment, the membership check answers true. |
| Enrollment.BuildOrderRequest | backend/src/controllers/enrollmentController.js:98-124 | The payment request has exactly one item, with quantity 1, the course id as SKU and USD currency. The item price equals the amount total. The return and cancel URLs are built from the client URL and the course id. |
| Enrollment.FirstApproval | backend/src/controllers/enrollmentController.js:132-137 | The loop picks the first link whose rel is `approval_url`, or none when no link has that rel. |
| Enrollment.CreatePaypalOrder | backend/src/controllers/enrollmentController.js:83-139 | A missing course is a 404, and a read price of at most 0 is the free-course 400. Both come before the enrolled test. With a read price that is not at most 0, an enrolled student gets the already-enrolled 400, and a course with no read price gets the 500. A request is sent exactly when the course has a positive read price and the student is not enrolled. It is the request built from that course's title and price. After a request, a gateway failure is passed on. A created payment replies with the href of the first approval link, or sends nothing when there is none. |
| Enrollment.NoOrderOnSchemaCourses | backend/src/controllers/enrollmentController.js:89-113 | For a student not yet enrolled in a course the schema accepted, no request is sent and the reply is the 500. |
| Enrollment.NoOrderAfterCapture | backend/src/controllers/enrollmentController.js:89-96 | Once a capture has enrolled the student, a new order for that course sends nothing to the gateway. The reply is the already-enrolled or the free-course 400. |
| Enrollment.CapturePaypalOrder | backend/src/controllers/enrollmentController.js:154-188 | A missing payment handle is a 400 before any lookup. With both handles, a missing course or student is a 404 and an enrolled student a 400. The gateway is called exactly past these guards. Its failure is passed on as a 500. The state `approved` performs the dual write. Any other state is the not-approved 400. Every outcome except a capture leaves the store unchanged. |
| Enrollment.CapturePreserves | backend/src/controllers/enrollmentController.js:167-183 | Capture keeps the enrollment lists duplicate-free and mirrored. |
| Enrollment.CaptureNeverTwice | backend/src/controllers/enrollmentController.js:167-169 | After a successful capture, a second capture for the same pair is refused whatever the gateway says, and changes nothing. |
| Ratings.MeanBounds | backend/src/controllers/ratingController.js:31-33 | The average of a non-empty list of ratings in [1, 5] lies in [1, 5]. |
| Ratings.MeanOrderIndependent | backend/src/controllers/ratingController.js:31-33 | The average depends only on the multiset of rating values, not on their order. |
| Ratings.MeanExample | backend/src/controllers/ratingController.js:31-33 | Ratings 5, 3 and 4 average to exactly 4. |
| Ratings.AddRating | backend/src/controllers/ratingController.js:10-35 | A user who already rated the course gets a 400 with no write. The rating is created exactly when it is new, valid, has a fresh id and the course exists. An invalid value or an id clash is the 500 with no write. The rating stored and returned is the one `Models.BuildRating` casts, comment trimmed. A missing course still leaves the saved rating in the store, with a 500 reply. On success the course's list grows by the new id and its average is recomputed; every other field of that course, every other course and every user stay as they were. |
| Ratings.AddRatingAverage | backend/src/controllers/ratingController.js:27-33 | After a rating is added, the course's average is the mean of the values of every rating it lists, the new one included. |
| Ratings.AddRatingPreserves | backend/src/controllers/ratingController.js:10-35 | `addRating` keeps ratings conforming, at most one per (user, course), course lists pointing at stored ratings, and every average equal to its mean. |
| Ratings.AverageInRange | backend/src/controllers/ratingController.js:31-33 | On a consistent store, every average is 0 or lies in [1, 5]. |
| Ratings.SecondRatingRefused | backend/src/controllers/ratingController.js:12-15 | A second rating by the same user on the same course is refused, writes nothing, and leaves the average unchanged. |
| Ratings.GetCourseRatings | backend/src/controllers/ratingController.js:48-50 | Definition: the stored ratings whose course is the one asked for. `Ratings.AddRatingListed` is the property about it. |
| Ratings.AddRatingListed | backend/src/controllers/ratingController.js:17-24 | A successful rating adds exactly one entry, the new rating, to that course's listing. |
| Courses.Classify | backend/src/controllers/courseController.js:29-31 | A `video/` mimetype is a video. Otherwise exactly `application/pdf` is a pdf, and anything else is a resource. |
| Courses.FileItems | backend/src/controllers/courseController.js:27-40 | Each uploaded file yields one item, in upload order, titled with its original name, typed by its mimetype and pointing at `/uploads/<filename>`. |
| Courses.AssembleContent | backend/src/controllers/courseController.js:15-47 | File items come first. The body's items follow only when the body sent an array. |
| Courses.CourseImageUrl | backend/src/controllers/courseController.js:12-24 | Definition: no image URL without an image file, otherwise `/uploads/` plus the first image's filename. The Course schema has no path to store it, so the URL is never saved. |
| Courses.Publish | backend/src/controllers/courseController.js:60-63 | The course is stored under its id and that id is pushed onto its instructor's `createdCourses`. Every other field of the instructor, and every other user, stays as it was. |
| Courses.CreateCourse | backend/src/controllers/courseController.js:5-69 | Creation succeeds exactly when the assembled course passes validation under a fresh id. Otherwise the reply is 500 with no write. The stored course is exactly the one the schema builds from the request. It has the trimmed title, category and tags, the description and pricing as sent, the caller as instructor and the assembled content. It starts with no students, no ratings and average 0. |
| Courses.GetCourseById | backend/src/controllers/courseController.js:82-97 | A missing course is a 404. `isEnrolled` is true exactly for a student caller listed on the course. |
| Courses.CourseFlagAgreesWithCheck | backend/src/controllers/courseController.js:92-97 | For a student, the course view's flag equals the enrollment controller's membership answer. |
| Courses.ApplyUpdate | backend/src/controllers/courseController.js:125-129 | An update sets only the fields it carries, trims title, category and tags, and leaves the students, ratings, average, instructor and read price alone. |
| Courses.UpdateCourse | backend/src/controllers/courseController.js:116-133 | An instructor's update matches only their own course; any other role matches by id. No match is a 404 with no write. Only the matched course changes. |
| Courses.UpdateOwnerOnly | backend/src/controllers/courseController.js:116-133 | Under the instructor-only route, a successful update was by the course's owner, and a non-owner changes nothing. |
| Courses.UpdatePreservesEnrollment | backend/src/controllers/courseController.js:125-129 | Updates keep the enrollment lists consistent. |
| Courses.OverwriteStudents | backend/src/controllers/courseController.js:112-129 | A PATCH body carrying `enrolledStudents` replaces the list on the matched course. The match is the same owner-or-id rule as any other update. |
| Courses.OverwriteBreaksMirror | backend/src/controllers/courseController.js:112-129 | From a consistent store, the owner's PATCH listing a student whose own record does not list the course breaks the enrollment mirror. |
| Courses.PathValue | backend/src/controllers/courseController.js:148-151 | A query filter sees no value at a path the Course schema does not declare. |
| Courses.DeleteFilterOwnerOnly | backend/src/controllers/courseController.js:148-151 | The delete filter matches exactly the caller's own course whatever their role, because the `userRole` disjunct never holds. |
| Courses.DeleteCourse | backend/src/controllers/courseController.js:148-165 | No match is a 404 with no write. A match removes the course, pulls exactly that id from the owner's `createdCourses` unless the role is admin, keeping the owner's other fields and other course ids, and leaves ratings and students' lists untouched. |
| Courses.DeletePreservesEnrollment | backend/src/controllers/courseController.js:157-165 | Deleting a course keeps the remaining enrollment lists consistent. |
| Admin.RedactHidesPassword | backend/src/controllers/adminController.js:41-45 | The returned user carries every field except the password, and does not depend on it. |
| Admin.UpdateUserRole | backend/src/controllers/adminController.js:37-49 | A role outside {student, instructor, admin} is a 400 before any lookup, and an unknown user is a 404. On success only that user's role changes, and the reply is the updated user without a password. |
| Admin.WithRole | backend/src/controllers/adminController.js:17-18 | Definition: the ids of the stored users holding the role, as the dashboard's `countDocuments({ role })` selects them. `Admin.DashboardStats` and `Admin.RoleChangeMovesOneUser` state what follows from it. |
| Admin.DashboardStats | backend/src/controllers/adminController.js:16-18 | The stats count all users, the students and the instructors, and students plus instructors never exceed the total. |
| Admin.RoleChangeMovesOneUser | backend/src/controllers/adminController.js:16-49 | A role change keeps the total and moves each role count by at most one. |
| GoogleAuth.FindFirst | backend/src/config/passport.js:17-26 | `findOne` returns the first matching document, or none exactly when nothing matches. |
| GoogleAuth.GoogleVerify | backend/src/config/passport.js:15-50 | A user holding the profile's Google id is returned unchanged. Failing that, an empty e-mail list is an error. Failing that, the first user with the profile's first e-mail gets the Google id written on and is returned. Failing that, exactly one document is added under the new id: a student with the profile's name, e-mail and Google id and no password. A failed save, or a new id already taken, is an error. Every error leaves the store as it was. |
| GoogleAuth.VerifyIdempotent | backend/src/config/passport.js:17-46 | After one successful sign-in, signing in again with the same profile returns the same user and writes nothing. |
| GoogleAuth.EmailMatchRelinks | backend/src/config/passport.js:26-32 | A user found by e-mail is re-linked even when it already carries another Google id. |
| GoogleAuth.Serialize | backend/src/config/passport.js:54-56 | Definition: the session keeps the user's id. `GoogleAuth.SessionRoundTrip` is the property about it. |
| GoogleAuth.Deserialize | backend/src/config/passport.js:58-60 | Lookup by id finds a stored user with that id, or nothing exactly when no document has it. |
| GoogleAuth.SessionRoundTrip | backend/src/config/passport.js:54-60 | With unique ids, deserialising a serialised stored user gives that user back. |
| GoogleAuth.VerifyKeepsIdsUnique | backend/src/config/passport.js:36-46 | A sign-in keeps document ids unique. |
| Tags.Split | frontend/src/components/EditCourse.jsx:156 | Splitting on commas gives at least one comma-free piece, and joining the pieces with commas gives the text back. |
| Tags.SplitJoin | frontend/src/components/EditCourse.jsx:156 | On a non-empty list of comma-free pieces, splitting undoes joining with commas. |
| Tags.DropEmpty | frontend/src/components/EditCourse.jsx:156 | The filter keeps every non-empty piece as often as the input has it, and keeps no empty piece. A list with no empty piece comes back whole. |
| Tags.DropEmptyAppend | frontend/src/components/EditCourse.jsx:156 | Filtering a concatenation concatenates the filtered parts, so the kept pieces stay in input order. |
| Tags.ParseTags | frontend/src/components/EditCourse.jsx:156 | The saved tags are trimmed, non-empty and comma-free. |
| Tags.ParseTagsSingle | frontend/src/components/EditCourse.jsx:156 | A field without a comma gives its trimmed text as the one tag, or no tag when that text is blank. |
| Tags.ParseTagsCons | frontend/src/components/EditCourse.jsx:156 | The text before the first comma gives its piece, followed in order by the tags of the rest. With the single-piece case this determines the saved list for every field text. |
| Tags.EmptyFieldNoTags | frontend/src/components/EditCourse.jsx:156 | An empty tag field saves an empty tag list. |
| Tags.TagsRoundTrip | frontend/src/components/EditCourse.jsx:156 | Parsing the ", "-joined text shown on load gives back any list of trimmed, non-empty, comma-free tags. |
| Tags.CommaSplitsTag | frontend/src/components/EditCourse.jsx:156 | Two tags joined by a bare comma are read back as those two tags. |
| Tags.CommaTagSplits | frontend/src/components/EditCourse.jsx:156 | A tag containing a comma comes back as two tags. |
| ContentEditor.NewItem | frontend/src/components/EditCourse.jsx:82-93 | A new item has its type and an empty title. It has an empty url for video, resource and pdf, an empty text for quiz, and nothing more otherwise. |
| ContentEditor.RemoveAt | frontend/src/components/EditCourse.jsx:109 | The filter drops exactly the element at the index and keeps the others in order. An index outside the list drops nothing. |
| ContentEditor.AddContent | frontend/src/components/EditCourse.jsx:82-98 | Adding appends exactly one new item, opens it at the old length as a new item, and leaves the editor valid. |
| ContentEditor.EditContent | frontend/src/components/EditCourse.jsx:101-104 | Editing opens the given item as an existing one and leaves the list unchanged. |
| ContentEditor.RemoveContent | frontend/src/components/EditCourse.jsx:107-120 | An unconfirmed removal changes nothing. A confirmed one drops the element, closes an open item at that index, moves a later open index down and keeps an earlier one. An item that stays open is the same item, and the editor stays valid. |
| ContentEditor.SaveContent | frontend/src/components/EditCourse.jsx:123-127 | Saving closes the open item and leaves the list unchanged. |
| ContentEditor.CancelEdit | frontend/src/components/EditCourse.jsx:130-138 | Cancelling a new item removes it, which is the last item. Cancelling an existing item keeps the list. Both close the editing state. |
| ContentEditor.AddThenCancel | frontend/src/components/EditCourse.jsx:82-138 | Adding an item and then cancelling restores the editor exactly. |
| ContentEditor.ChangeField | frontend/src/components/EditCourse.jsx:71-79 | A field edit sets only that field of that item. Other fields and other items are unchanged. |
| ContentEditor.RunPreservesValid | frontend/src/components/EditCourse.jsx:300-350 | Across any sequence of actions the page offers, the open index designates an item and a new item is the open last one. |
| ContentEditor.Submit | frontend/src/components/EditCourse.jsx:140-159 | Submit is refused with the fixed message exactly while an item is open. Otherwise the form, the parsed tags and the current content list are sent. |
| ContentEditor.ToItem | frontend/src/components/EditCourse.jsx:48 | A loaded content item has a key for exactly the fields the stored item has, holding that field's value. |
| ContentEditor.FromItem | backend/src/models/Course.js:34-42 | The server's cast of a received content object reads a field exactly when the object has that key. |
| ContentEditor.ItemRoundTrip | frontend/src/components/EditCourse.jsx:48 | A stored content item that goes to the page and back is cast to the same item. |
| ContentEditor.Load | frontend/src/components/EditCourse.jsx:39-48 | After loading, the form holds the course's title, description, category and pricing. It also holds the ", "-joined tags and an empty image URL. The content list has, in order, the page form of each stored item, with nothing open. |
| ContentEditor.LoadThenSubmit | frontend/src/components/EditCourse.jsx:39-159 | Saving a freshly loaded schema course sends back its title, description, category, pricing and content. It also sends back the tags whenever they are non-empty and comma-free. The server casts the sent content back to exactly the stored items. |
| CourseDetailPage.HttpErrorText | frontend/src/components/CourseDetail.jsx:49 | The error for a non-2xx reply starts with "HTTP error! status: ". |
| CourseDetailPage.OnCourseFetched | frontend/src/components/CourseDetail.jsx:36-68 | A 400 whose message contains "already enrolled" marks the student enrolled and clears course and error. Any other failure stores its message and clears course and flag. A 2xx stores the course and its flag. Loading always ends. |
| CourseDetailPage.BackendRefusalIsRecognised | frontend/src/components/CourseDetail.jsx:39 | The backend's enrollment refusal text is recognised as the already-enrolled reply. |
| CourseDetailPage.RoutedFetchNeverEnrolled | backend/src/routes/courses.js:11 | The course route reads no credentials, so a fetched page is never marked enrolled. |
| CourseDetailPage.AsEnrollResult | backend/src/controllers/enrollmentController.js:19-47 | The click sees a 2xx exactly for an enrollment; every refusal carries the controller's message, the paid-course text for the paid-course 400. |
| CourseDetailPage.ClickOnSchemaCourseOnlyRefuses | frontend/src/components/CourseDetail.jsx:102-124 | Against `enrollStudent` on a course the schema accepted, the click never goes to payment and never marks the student enrolled; a request stores the refusal, the paid-course text for a known student not yet on the course. |
| CourseDetailPage.HandleEnroll | frontend/src/components/CourseDetail.jsx:75-125 | A request is sent exactly when the user is signed in, is a student and is not enrolled. A 2xx on a priced course goes to payment; on any other course it marks the student enrolled. A failure stores a non-empty message. |
| CourseDetailPage.Render | frontend/src/components/CourseDetail.jsx:127-185 | The views come in this order: loading; already-enrolled for a signed-in enrolled student; a non-empty error; not-found; details. The Edit button is shown only to the signed-in owning instructor. The Enroll button is shown only to signed-in students who are not enrolled. Content is shown only when it is non-empty and the viewer is not a student or is enrolled. |
| CourseDetailPage.StudentsNeverSeeContent | frontend/src/components/CourseDetail.jsx:131-185 | In any auth state the slice can reach, a student is never shown the content list. |
| CourseDetailPage.VisitorsSeeContent | frontend/src/components/CourseDetail.jsx:185 | A signed-out visitor sees the content of any course that has some, with neither button. |
| AuthSlice.SetLogin | frontend/src/redux/authSlice.js:13-17 | Definition: login takes user and token from the payload and signs in. `AuthSlice.SignedInIffLastLogin` is the property about it. |
| AuthSlice.SetLogout | frontend/src/redux/authSlice.js:18-22 | Definition: logout clears user and token and signs out, from any state. `AuthSlice.LogoutRestoresInitial` and `AuthSlice.ReachableSignedOutIsEmpty` are the properties about it. |
| AuthSlice.LogoutRestoresInitial | frontend/src/redux/authSlice.js:3-22 | Logout yields the initial state, is idempotent, and undoes a login. |
| AuthSlice.SignedInIffLastLogin | frontend/src/redux/authSlice.js:13-22 | After any non-empty run, the client is signed in exactly when the last action was a login, and then holds that login's user and token. |
| AuthSlice.ReachableSignedOutIsEmpty | frontend/src/redux/authSlice.js:3-22 | A signed-out client reached from any state holding no user holds no user and no token. |
| BackendRuns.DualWriteKeeps | backend/src/controllers/enrollmentController.js:34-39 | The enrollment dual write keeps the whole store invariant. |
| BackendRuns.PublishKeeps | backend/src/controllers/courseController.js:49-63 | Publishing a new course under a never-used id keeps the whole store invariant. |
| BackendRuns.RunKeepsInvariant | backend/src/controllers/enrollmentController.js:27-41 | Any sequence of enrollments, captures, ratings, creations, role changes, deletions and updates of the editable fields keeps the whole store invariant. An update body that sets the student list is not covered: `Courses.OverwriteBreaksMirror` shows it can break the invariant. |
| BackendRuns.RunKeepsEnrollmentMirrored | backend/src/controllers/enrollmentController.js:27-41 | From a consistent store, after any such run: no list holds a duplicate, course and student lists mirror each other, and every average is 0 or within [1, 5]. Updates are limited to the editable fields, as for `BackendRuns.RunKeepsInvariant`. |

## Left out

- PayPal SDK and configuration: the gateway is an input (an error, a payment state, or a list of links). The loop that sends nothing when no approval link exists leaves the request hanging; the model reports it as `NoReply`.
- `toFixed(2)` formatting: prices are integer cents, and the formatted string is not modelled.
- Persistence:
  - `populate`, ObjectId casting and equality are not modelled.
  - The non-transactional two-step saves of the enrollment handlers and of `createCourse` are not modelled: each handler is one atomic step.
  - A failing second write is not modelled, except where the order of writes is itself the behaviour (a rating saved before its course is fetched).
- Concurrency: concurrent double enrollment and concurrent ratings are not modelled.
- Ratings.AddRating: the controller pushes the new rating's id into a list that `populate` already filled with rating documents. Mongoose casts that id to a rating document holding only its `_id`, so `r.rating` is undefined for it, the sum is NaN, and the Number cast of `averageRating` refuses the save. As written, every rating that reaches the recomputation therefore ends in the 500 reply, with the rating already stored and the course unchanged. Mongoose's array casting is not part of this model. The model computes the mean of the values the list refers to, which is the average the code evidently means.
- Ratings.AddRating: rating values are integers. Fractional or string-typed values, which Mongoose would cast, are not modelled.
- Courses.DeleteFilterOwnerOnly: it relies on MongoDB matching no document on a filter path the schema does not declare. With `strictQuery` on, Mongoose would instead drop the `userRole` condition, and the `$or` would match every course.
- Courses.CreateCourse: the computed image URL is not stored, because the Course schema has no `imageUrl` path. It is modelled by `Courses.CourseImageUrl` only.
- Ratings.AddRatingAverage: it states the intended mean over the listed ratings. As written the save of that mean fails, as the Ratings.AddRating line above explains.
- Courses.ApplyUpdate: only the declared editable fields are applied, for the reason given on the Courses.UpdateCourse line below.
- Courses.UpdateCourse: an update carries only the declared editable fields. Arbitrary update operators, validators on update (which Mongoose skips here) and `imageUrl` are not modelled.
- Express wiring: routes and middleware are not modelled. Route gates appear only where they matter: `UpdateOwnerOnly` assumes the instructor-only PATCH route, and `RoutedFetchNeverEnrolled` assumes the unauthenticated GET route.
- Role checks of the routes: the PayPal handlers are not routed at all, and enrollment and rating are student-only. The handlers are modelled for any caller.
- `getAllUsers` and `getAllCourses` are plain listings with no decision logic, so they are not modelled.
- The User schema (backend/src/models/User.js) is not part of this model. Its validation appears in `GoogleAuth.GoogleVerify` only as the `saveOk` input.
- BackendRuns.RunKeepsInvariant: created courses must use ids never handed out before. Deleted courses stay listed by their students, so a reused id would break the mirror.
- BackendRuns.RunKeepsInvariant: updates carry only the fields the editor sends. `updateCourse` passes the request body to the update unfiltered, so a PATCH that sets `enrolledStudents`, `ratings` or `averageRating` can break the invariant. `Courses.OverwriteBreaksMirror` shows this for the student list.
- BackendRuns.RunKeepsEnrollmentMirrored: it inherits both limits of BackendRuns.RunKeepsInvariant above: fresh course ids, and updates carrying only the editor's fields.
- ContentEditor.ToItem, ContentEditor.FromItem, ContentEditor.ItemRoundTrip: the `_id` Mongoose gives each content subdocument is not modelled. Loaded items carry it back on save, and new items get a fresh one; the round trip is stated over the four declared fields only.
- Multer configuration, file storage and `Date.now()`-based file names are not modelled; uploads are given as metadata.
- React side effects (`fetch`, `localStorage`, navigation, markup), the confirmation dialog (a boolean input), the save and delete requests of the editor, and its page-level form fields other than tags are not modelled.
- The payment page, the login, register and add-course forms, the home page, the header, the footer and the app shell are not modelled.
- JWT issuance is not modelled.
- ContentEditor.Submit: `pricing` is an integer. After the user types into the field it is a string in the browser, which the server casts.

## Notes on behaviour the model makes visible

- `Enrollment.EnrollNeverFreeOnSchemaCourses` and `Enrollment.NoOrderOnSchemaCourses`: because the controller reads `price` and not `pricing`, neither `enrollStudent` nor `createPaypalOrder` can succeed on a stored course. `capturePaypalOrder` reads no price, so an approved payment still enrolls the student; only the order that would lead to it cannot be created.
- `CourseDetailPage.ClickOnSchemaCourseOnlyRefuses`: on the course page, the Enroll button on a stored course therefore never leads to payment and never marks the student enrolled; it only shows the backend's refusal.
- `CourseDetailPage.StudentsNeverSeeContent`: an enrolled student gets the "already enrolled" view and never the content list. A signed-out visitor does see the content (`CourseDetailPage.VisitorsSeeContent`).
- `CourseDetailPage.RoutedFetchNeverEnrolled`: the course route is unauthenticated, so the page's enrolled flag never comes from the course fetch.
- `GoogleAuth.EmailMatchRelinks`: linking by e-mail overwrites an existing Google id.

=== FILE: admin.dfy ===
/** The admin controller: role changes and the dashboard counts. */
module Admin {
  import opened Common
  import opened Models

  /** The role whitelist `updateUserRole` checks against. */
  predicate ValidRole(role: string)
  {
    role == "student" || role == "instructor" || role == "admin"
  }

  /** A user as the admin endpoints return it: every field except the password. */
  datatype PublicUser = PublicUser(
    name: string,
    email: string,
    role: string,
    googleId: Option<string>,
    enrolledCourses: seq<Id>,
    createdCourses: seq<Id>)

  /** `select('-password')`. */
  function Redact(u: User): PublicUser
  {
    PublicUser(u.name, u.email, u.role, u.googleId, u.enrolledCourses, u.createdCourses)
  }

  /** The returned view carries no trace of the password: users differing only
      in their password have the same view, and every other field is kept. */
  lemma RedactHidesPassword(u: User, p: Option<string>)
    ensures Redact(u.(password := p)) == Redact(u)
    ensures var v := Redact(u);
      v.name == u.name && v.email == u.email && v.role == u.role && v.googleId == u.googleId
      && v.enrolledCourses == u.enrolledCourses && v.createdCourses == u.createdCourses
  {
  }

  /** Replies of `updateUserRole`. */
  datatype RoleReply = InvalidRole | UserNotFound | RoleUpdated(user: PublicUser)  // 400 / 404 / 200

  /** `updateUserRole`: a role outside the whitelist is refused before the store
      is touched; an unknown user is a 404; otherwise only that user's role
      changes and the updated user is returned without its password. */
  function UpdateUserRole(db: Db, userId: Id, role: string): (r: Step<RoleReply>)
    ensures !ValidRole(role) ==> r == Step(InvalidRole, db)
    ensures ValidRole(role) && userId !in db.users ==> r == Step(UserNotFound, db)
    ensures r.reply.RoleUpdated? <==> ValidRole(role) && userId in db.users
    ensures r.db.courses == db.courses && r.db.ratings == db.ratings && r.db.users.Keys == db.users.Keys
    ensures forall u :: u in db.users && u != userId ==> r.db.users[u] == db.users[u]
    ensures r.reply.RoleUpdated? ==>
              && r.db.users[userId] == db.users[userId].(role := role)
              && r.reply.user == Redact(r.db.users[userId])
              && r.reply.user.role == role
  {
    if !ValidRole(role) then Step(InvalidRole, db)
    else if userId !in db.users then Step(UserNotFound, db)
    else
      var updated := db.users[userId].(role := role);
      Step(RoleUpdated(Redact(updated)), db.(users := db.users[userId := updated]))
  }

  /** The dashboard figures. */
  datatype Stats = Stats(totalUsers: nat, totalStudents: nat, totalInstructors: nat)

  /** Ids of the users holding `role`. */
  function WithRole(users: map<Id, User>, role: string): (ids: set<Id>)
    ensures ids <= users.Keys
    ensures forall u :: u in ids <==> u in users && users[u].role == role
  {
    set u | u in users && users[u].role == role
  }

  /** `getDashboardStats`: all users, students and instructors counted; the two
      roles never add up to more than the whole. */
  function DashboardStats(users: map<Id, User>): (s: Stats)
    ensures s.totalUsers == |users|
    ensures s.totalStudents == |WithRole(users, "student")|
    ensures s.totalInstructors == |WithRole(users, "instructor")|
    ensures s.totalStudents + s.totalInstructors <= s.totalUsers
  {
    var students := WithRole(users, "student");
    var instructors := WithRole(users, "instructor");
    assert students !! instructors;
    assert |students + instructors| == |students| + |instructors|;
    assert students + instructors <= users.Keys;
    SubsetCard(students + instructors, users.Keys);
    assert |users.Keys| == |users|;
    Stats(|users|, |students|, |instructors|)
  }

  lemma SubsetCard(a: set<Id>, b: set<Id>)
    requires a <= b
    ensures |a| <= |b|
  {
    assert b == a + (b - a);
  }

  /** A role change keeps the number of users and moves at most one user
      between the student and instructor counts. */
  lemma RoleChangeMovesOneUser(db: Db, userId: Id, role: string)
    requires UpdateUserRole(db, userId, role).reply.RoleUpdated?
    ensures var s := DashboardStats(db.users);
      var s' := DashboardStats(UpdateUserRole(db, userId, role).db.users);
      && s'.totalUsers == s.totalUsers
      && s.totalStudents - 1 <= s'.totalStudents <= s.totalStudents + 1
      && s.totalInstructors - 1 <= s'.totalInstructors <= s.totalInstructors + 1
  {
    var users' := UpdateUserRole(db, userId, role).db.users;
    assert users'.Keys == db.users.Keys;
    assert |users'| == |users'.Keys| == |db.users.Keys| == |db.users|;
    OneChange(db.users, users', userId, "student");
    OneChange(db.users, users', userId, "instructor");
  }

  lemma OneChange(users: map<Id, User>, users': map<Id, User>, userId: Id, role: string)
    requires users'.Keys == users.Keys
    requires forall u :: u in users && u != userId ==> users'[u] == users[u]
    ensures |WithRole(users, role)| - 1 <= |WithRole(users', role)| <= |WithRole(users, role)| + 1
  {
    var a := WithRole(users, role);
    var b := WithRole(users', role);
    assert a - {userId} == b - {userId};
    assert |a| - 1 <= |a - {userId}| <= |a|;
    assert |b| - 1 <= |b - {userId}| <= |b|;
  }
}

=== FILE: authslice.dfy ===
/** The client's authentication slice (authSlice.js): who is signed in, with
    which token. */
module AuthSlice {
  import opened Common

  /** The parts of the stored user object the pages read. */
  datatype SessionUser = SessionUser(id: Option<Id>, role: Option<string>)

  datatype AuthState = AuthState(user: Option<SessionUser>, token: Option<string>, isLoggedIn: bool)

  /** `action.payload` of a login. */
  datatype LoginPayload = LoginPayload(user: Option<SessionUser>, token: Option<string>)

  /** `initialState`: nobody signed in. */
  const Initial: AuthState := AuthState(None, None, false)

  /** `setLogin`: user and token from the payload, signed in. */
  function SetLogin(s: AuthState, p: LoginPayload): (s': AuthState)
    ensures s'.user == p.user && s'.token == p.token && s'.isLoggedIn
  {
    AuthState(p.user, p.token, true)
  }

  /** `setLogout`: user and token cleared, signed out, whatever the state was. */
  function SetLogout(s: AuthState): (s': AuthState)
    ensures s'.user.None? && s'.token.None? && !s'.isLoggedIn
  {
    AuthState(None, None, false)
  }

  /** Logging out lands on the initial state, so a second logout changes
      nothing, and logging in then out leaves nothing of the login behind. */
  lemma LogoutRestoresInitial(s: AuthState, p: LoginPayload)
    ensures SetLogout(s) == Initial
    ensures SetLogout(SetLogout(s)) == SetLogout(s)
    ensures SetLogout(SetLogin(s, p)) == Initial
  {
  }

  datatype Action = Login(payload: LoginPayload) | Logout

  function Reduce(s: AuthState, a: Action): AuthState
  {
    match a
    case Login(p) => SetLogin(s, p)
    case Logout => SetLogout(s)
  }

  /** The state after a sequence of dispatched actions. */
  function Run(s: AuthState, acts: seq<Action>): AuthState
    decreases |acts|
  {
    if |acts| == 0 then s else Run(Reduce(s, acts[0]), acts[1..])
  }

  /** After any non-empty run the client is signed in exactly when the last
      action was a login, and then holds that login's user and token. */
  lemma {:induction false} SignedInIffLastLogin(s: AuthState, acts: seq<Action>)
    requires |acts| > 0
    ensures Run(s, acts).isLoggedIn <==> acts[|acts| - 1].Login?
    ensures acts[|acts| - 1].Login? ==>
              Run(s, acts).user == acts[|acts| - 1].payload.user
              && Run(s, acts).token == acts[|acts| - 1].payload.token
    ensures acts[|acts| - 1].Logout? ==> Run(s, acts) == Initial
    decreases |acts|
  {
    if |acts| > 1 {
      SignedInIffLastLogin(Reduce(s, acts[0]), acts[1..]);
    }
  }

  /** A signed-out client holds no user and no token. */
  predicate SignedOutIsEmpty(s: AuthState)
  {
    !s.isLoggedIn ==> s.user.None? && s.token.None?
  }

  /** Every state reached from the initial one holds no user while signed out;
      so a page that reads `user?.role` sees no role unless someone is signed in. */
  lemma {:induction false} ReachableSignedOutIsEmpty(s: AuthState, acts: seq<Action>)
    requires SignedOutIsEmpty(s)
    ensures SignedOutIsEmpty(Run(s, acts))
    decreases |acts|
  {
    if |acts| > 0 {
      ReachableSignedOutIsEmpty(Reduce(s, acts[0]), acts[1..]);
    }
  }
}

=== FILE: common.dfy ===
/** Shared vocabulary of the model: optional values, opaque document ids,
    duplicate-free lists, and the few JavaScript string operations the
    controllers and components rely on (`trim`, `startsWith`, `includes`). */
module Common {

  /** An opaque document id (a MongoDB ObjectId in the system). */
  type Id = string

  /** A value that may be absent (`undefined` / `null` in the system). */
  datatype Option<+T> = None | Some(value: T)

  /** JavaScript truthiness of a string-valued field: present and non-empty. */
  predicate Present(s: Option<string>)
  {
    s.Some? && s.value != ""
  }

  /** No element occurs twice. */
  predicate NoDup<T(==)>(s: seq<T>)
  {
    forall i, j :: 0 <= i < j < |s| ==> s[i] != s[j]
  }

  /** Number of occurrences of `x` in `s`. */
  function Count<T(==)>(s: seq<T>, x: T): (n: nat)
    ensures n <= |s|
    ensures n == 0 <==> x !in s
  {
    if |s| == 0 then 0
    else (if s[0] == x then 1 else 0) + Count(s[1..], x)
  }

  /** Appending an element that is not yet present keeps a list duplicate-free. */
  lemma NoDupAppend<T>(s: seq<T>, x: T)
    requires NoDup(s) && x !in s
    ensures NoDup(s + [x])
  {
  }

  /** In a duplicate-free list a present element occurs exactly once. */
  lemma {:induction false} NoDupCountOne<T>(s: seq<T>, x: T)
    requires NoDup(s) && x in s
    ensures Count(s, x) == 1
  {
    if s[0] == x {
      assert x !in s[1..] by {
        forall k | 0 <= k < |s[1..]|
          ensures s[1..][k] != x
        {
          assert s[1..][k] == s[k + 1];
        }
      }
    } else {
      assert x in s[1..] by {
        var k :| 0 <= k < |s| && s[k] == x;
        assert s[1..][k - 1] == x;
      }
      assert NoDup(s[1..]) by {
        forall i, j | 0 <= i < j < |s[1..]|
          ensures s[1..][i] != s[1..][j]
        {
          assert s[1..][i] == s[i + 1] && s[1..][j] == s[j + 1];
        }
      }
      NoDupCountOne(s[1..], x);
    }
  }

  /** MongoDB `$pull`: removes every occurrence of `x`, keeping the rest in order. */
  function RemoveAll<T(==,!new)>(s: seq<T>, x: T): (r: seq<T>)
    ensures x !in r
    ensures forall y :: y != x ==> (y in r <==> y in s)
    ensures |r| == |s| - Count(s, x)
  {
    if |s| == 0 then []
    else if s[0] == x then RemoveAll(s[1..], x)
    else [s[0]] + RemoveAll(s[1..], x)
  }

  /** The characters ECMAScript's `String.prototype.trim` strips: the
      WhiteSpace production (tab, vertical tab, form feed, space, no-break
      space, the byte-order mark and every other space separator, category Zs)
      and the LineTerminator production (line feed, carriage return, line and
      paragraph separators). */
  predicate IsSpace(c: char)
  {
    c == ' ' || c == '\t' || c == '\n' || c == '\r' || c == '\U{B}' || c == '\U{C}'
    || c == '\U{A0}' || c == '\U{FEFF}' || c == '\U{2028}' || c == '\U{2029}'
    || c == '\U{1680}' || ('\U{2000}' <= c <= '\U{200A}')
    || c == '\U{202F}' || c == '\U{205F}' || c == '\U{3000}'
  }

  predicate AllSpace(s: string)
  {
    forall i :: 0 <= i < |s| ==> IsSpace(s[i])
  }

  /** A string `trim` leaves alone: empty, or starting and ending with a non-space. */
  predicate IsTrimmed(s: string)
  {
    |s| == 0 || (!IsSpace(s[0]) && !IsSpace(s[|s| - 1]))
  }

  /** Length of the leading white-space run. */
  function LeadingSpaces(s: string): (k: nat)
    ensures k <= |s|
    ensures AllSpace(s[..k])
    ensures k == |s| || !IsSpace(s[k])
  {
    if |s| > 0 && IsSpace(s[0]) then
      var k := 1 + LeadingSpaces(s[1..]);
      assert forall i :: 1 <= i < k ==> s[..k][i] == s[1..][..k - 1][i - 1];
      k
    else 0
  }

  /** Length of the trailing white-space run. */
  function TrailingSpaces(s: string): (k: nat)
    ensures k <= |s|
    ensures AllSpace(s[|s| - k..])
    ensures k == |s| || !IsSpace(s[|s| - k - 1])
  {
    if |s| > 0 && IsSpace(s[|s| - 1]) then
      var rest := s[..|s| - 1];
      var k := 1 + TrailingSpaces(rest);
      assert s[|s| - k..] == rest[|rest| - (k - 1)..] + [s[|s| - 1]];
      k
    else 0
  }

  /** ECMAScript `trim`: drops the leading and the trailing white-space run. */
  function Trim(s: string): (r: string)
    ensures IsTrimmed(r)
    ensures |r| <= |s|
    ensures exists i :: 0 <= i && i + |r| <= |s| && r == s[i..i + |r|]
              && AllSpace(s[..i]) && AllSpace(s[i + |r|..])
  {
    var i := LeadingSpaces(s);
    var a := s[i..];
    var j := TrailingSpaces(a);
    var r := a[..|a| - j];
    assert r == s[i..i + |r|];
    assert s[i + |r|..] == a[|a| - j..];
    assert IsTrimmed(r) by {
      if |r| > 0 {
        assert r[0] == s[i];
        assert r[|r| - 1] == a[|a| - j - 1];
      }
    }
    r
  }

  /** `trim` is idempotent. */
  lemma TrimIdempotent(s: string)
    ensures Trim(Trim(s)) == Trim(s)
  {
    TrimmedFixed(Trim(s));
  }

  /** `trim` leaves an already trimmed string unchanged. */
  lemma TrimmedFixed(s: string)
    requires IsTrimmed(s)
    ensures Trim(s) == s
  {
    if |s| > 0 {
      assert LeadingSpaces(s) == 0;
      assert TrailingSpaces(s) == 0;
    }
  }

  /** Leading white space before a trimmed non-empty string is exactly what `trim` removes. */
  lemma {:induction false} TrimAfterSpaces(p: string, t: string)
    requires AllSpace(p) && IsTrimmed(t) && t != ""
    ensures Trim(p + t) == t
  {
    LeadingSpacesOfPrefix(p, t);
    assert (p + t)[|p|..] == t;
    assert TrailingSpaces(t) == 0;
  }

  lemma {:induction false} LeadingSpacesOfPrefix(p: string, t: string)
    requires AllSpace(p) && t != "" && !IsSpace(t[0])
    ensures LeadingSpaces(p + t) == |p|
  {
    if |p| > 0 {
      assert (p + t)[1..] == p[1..] + t;
      LeadingSpacesOfPrefix(p[1..], t);
    } else {
      assert p + t == t;
    }
  }

  /** A string of white space trims to the empty string. */
  lemma AllSpaceTrimsEmpty(p: string)
    requires AllSpace(p)
    ensures Trim(p) == ""
  {
  }

  /** ECMAScript `startsWith`. */
  predicate StartsWith(s: string, prefix: string)
  {
    |prefix| <= |s| && s[..|prefix|] == prefix
  }

  /** `sub` occurs in `s` starting at index `i`. */
  predicate OccursAt(s: string, sub: string, i: int)
  {
    0 <= i && i + |sub| <= |s| && s[i..i + |sub|] == sub
  }

  /** ECMAScript `includes` on strings: `sub` occurs somewhere in `s`. */
  function Contains(s: string, sub: string): (b: bool)
    ensures b <==> exists i :: OccursAt(s, sub, i)
    decreases |s|
  {
    if StartsWith(s, sub) then
      assert OccursAt(s, sub, 0);
      true
    else if |s| == 0 then false
    else
      var rest := Contains(s[1..], sub);
      assert forall i :: OccursAt(s, sub, i) ==> OccursAt(s[1..], sub, i - 1) by {
        forall i | OccursAt(s, sub, i)
          ensures OccursAt(s[1..], sub, i - 1)
        {
          assert i != 0;
          assert s[1..][i - 1..i - 1 + |sub|] == s[i..i + |sub|];
        }
      }
      assert forall i :: OccursAt(s[1..], sub, i) ==> OccursAt(s, sub, i + 1) by {
        forall i | OccursAt(s[1..], sub, i)
          ensures OccursAt(s, sub, i + 1)
        {
          assert s[1..][i..i + |sub|] == s[i + 1..i + 1 + |sub|];
        }
      }
      rest
  }
}

=== FILE: courses.dfy ===
/** The course controller: content assembly and creation, the `isEnrolled`
    flag of `getCourseById`, and the authorization and side effects of
    `updateCourse` and `deleteCourse`. Uploaded files arrive as the metadata the
    multipart middleware produces. */
module Courses {
  import opened Common
  import opened Models
  import Enrollment

  /** Metadata of one stored upload. */
  datatype UploadedFile = UploadedFile(originalName: string, mimetype: string, filename: string)

  /** `req.files`: each field is present only when files were sent under it. */
  datatype Uploads = Uploads(courseImage: Option<seq<UploadedFile>>, courseFiles: Option<seq<UploadedFile>>)

  /** The public path of a stored upload. */
  function UploadUrl(filename: string): string
  {
    "/uploads/" + filename
  }

  /** Content kind of an uploaded file: a `video/` mimetype is a video, exactly
      `application/pdf` is a pdf, anything else a resource. */
  function Classify(mimetype: string): (k: ContentKind)
    ensures k == Video <==> StartsWith(mimetype, "video/")
    ensures k == Pdf <==> !StartsWith(mimetype, "video/") && mimetype == "application/pdf"
    ensures k == Resource <==> !StartsWith(mimetype, "video/") && mimetype != "application/pdf"
  {
    if StartsWith(mimetype, "video/") then Video
    else if mimetype == "application/pdf" then Pdf
    else Resource
  }

  /** The files under `courseFiles`, or none. */
  function OtherFiles(uploads: Option<Uploads>): seq<UploadedFile>
  {
    if uploads.Some? && uploads.value.courseFiles.Some? then uploads.value.courseFiles.value else []
  }

  /** One content item per uploaded file, in upload order: titled with the
      original name, typed by `Classify`, pointing at the stored file. */
  function FileItems(files: seq<UploadedFile>): (items: seq<ContentItem>)
    ensures |items| == |files|
    ensures forall i :: 0 <= i < |files| ==>
              && items[i].title == Some(files[i].originalName)
              && items[i].kind == Some(KindName(Classify(files[i].mimetype)))
              && items[i].url == Some(UploadUrl(files[i].filename))
              && items[i].text.None?
    ensures forall i :: 0 <= i < |items| ==> ValidContentItem(items[i])
  {
    if |files| == 0 then []
    else
      var f := files[0];
      [ContentItem(Some(f.originalName), Some(KindName(Classify(f.mimetype))), Some(UploadUrl(f.filename)), None)]
        + FileItems(files[1..])
  }

  /** The `content` field of the request body: an array of items, or anything else. */
  datatype BodyContent = ContentArray(items: seq<ContentItem>) | NotAnArray

  /** The course's content: the file-derived items first, then the body's items
      when the body sent an array. */
  function AssembleContent(uploads: Option<Uploads>, body: Option<BodyContent>): (content: seq<ContentItem>)
    ensures |OtherFiles(uploads)| <= |content|
    ensures content[..|OtherFiles(uploads)|] == FileItems(OtherFiles(uploads))
    ensures body.Some? && body.value.ContentArray? ==> content[|OtherFiles(uploads)|..] == body.value.items
    ensures !(body.Some? && body.value.ContentArray?) ==> |content| == |OtherFiles(uploads)|
  {
    var fromFiles := FileItems(OtherFiles(uploads));
    if body.Some? && body.value.ContentArray? then fromFiles + body.value.items else fromFiles
  }

  /** The image URL `createCourse` computes: absent without an image file (an
      empty image list reads element 0 as undefined), otherwise the first
      image's upload path. The Course schema declares no `imageUrl` path, so
      the saved course does not keep it. */
  function CourseImageUrl(uploads: Option<Uploads>): (url: Option<string>)
    ensures url.Some? <==> uploads.Some? && uploads.value.courseImage.Some? && |uploads.value.courseImage.value| > 0
    ensures url.Some? ==> url.value == UploadUrl(uploads.value.courseImage.value[0].filename)
  {
    if uploads.Some? && uploads.value.courseImage.Some? && |uploads.value.courseImage.value| > 0
    then Some(UploadUrl(uploads.value.courseImage.value[0].filename))
    else None
  }

  /** Replies of `createCourse`. */
  datatype CreateReply = CourseCreated(course: Course) | CreateError  // 201 / 500

  /** The two writes of a created course: the course itself, then its id pushed
      onto the instructor's `createdCourses` (a no-op when no such user exists). */
  function Publish(db: Db, instructorId: Id, newId: Id, course: Course): (d: Db)
    ensures d.courses == db.courses[newId := course]
    ensures d.ratings == db.ratings && d.users.Keys == db.users.Keys
    ensures instructorId in db.users ==>
              d.users[instructorId].createdCourses == db.users[instructorId].createdCourses + [newId]
    ensures instructorId in db.users ==>
              d.users[instructorId] == db.users[instructorId].(createdCourses := db.users[instructorId].createdCourses + [newId])
    ensures forall u :: u in db.users && u != instructorId ==> d.users[u] == db.users[u]
  {
    var users :=
      if instructorId in db.users then
        var u := db.users[instructorId];
        db.users[instructorId := u.(createdCourses := u.createdCourses + [newId])]
      else db.users;
    db.(courses := db.courses[newId := course], users := users)
  }

  /** `createCourse`: assemble the content and save the course; a failed
      validation or an id clash is a 500 that writes nothing. */
  function CreateCourse(db: Db, instructorId: Id, draft: CourseDraft, body: Option<BodyContent>,
                        uploads: Option<Uploads>, newId: Id): (r: Step<CreateReply>)
    ensures r.reply.CourseCreated? <==>
              BuildCourse(draft, instructorId, AssembleContent(uploads, body)).Some? && newId !in db.courses
    ensures r.reply.CreateError? ==> r.db == db
    ensures r.reply.CourseCreated? ==>
              && r.db == Publish(db, instructorId, newId, r.reply.course)
              && CourseConforms(r.reply.course)
              && r.reply.course == BuildCourse(draft, instructorId, AssembleContent(uploads, body)).value
              && r.reply.course.title == Trim(draft.title.value)
              && r.reply.course.description == draft.description.value
              && r.reply.course.category == Trim(draft.category.value)
              && r.reply.course.tags == TrimAll(draft.tags)
              && r.reply.course.pricing == draft.pricing.value
              && r.reply.course.instructor == instructorId
              && r.reply.course.content == AssembleContent(uploads, body)
              && r.reply.course.enrolledStudents == [] && r.reply.course.ratings == []
              && r.reply.course.averageRating == 0.0
  {
    var content := AssembleContent(uploads, body);
    var built := BuildCourse(draft, instructorId, content);
    if built.None? || newId in db.courses then Step(CreateError, db)
    else Step(CourseCreated(built.value), Publish(db, instructorId, newId, built.value))
  }

  /** The authenticated caller, when there is one. */
  datatype Requester = Requester(id: Id, role: string)

  /** Replies of `getCourseById`. */
  datatype ViewReply = CourseNotFound | CourseFound(course: Course, isEnrolled: bool)

  /** `getCourseById`: the stored course and whether the caller is an enrolled
      student; any caller who is not a student, or no caller, reads false. */
  function GetCourseById(db: Db, courseId: Id, requester: Option<Requester>): (r: ViewReply)
    ensures r.CourseNotFound? <==> courseId !in db.courses
    ensures r.CourseFound? ==> r.course == db.courses[courseId]
    ensures r.CourseFound? ==>
              (r.isEnrolled <==> requester.Some? && requester.value.role == "student"
                                 && requester.value.id in db.courses[courseId].enrolledStudents)
  {
    if courseId !in db.courses then CourseNotFound
    else
      var course := db.courses[courseId];
      var isEnrolled := requester.Some? && requester.value.role == "student"
                        && requester.value.id in course.enrolledStudents;
      CourseFound(course, isEnrolled)
  }

  /** For a student, the flag on the course page agrees with the enrollment
      controller's membership check. */
  lemma CourseFlagAgreesWithCheck(db: Db, courseId: Id, studentId: Id)
    requires courseId in db.courses
    ensures GetCourseById(db, courseId, Some(Requester(studentId, "student"))).isEnrolled
            == Enrollment.CheckEnrollment(db, courseId, studentId).isEnrolled
  {
  }

  /** The fields an update may set (those the course editor sends that the
      schema declares). */
  datatype CourseUpdate = CourseUpdate(
    title: Option<string>,
    description: Option<string>,
    category: Option<string>,
    tags: Option<seq<string>>,
    pricing: Option<int>,
    content: Option<seq<ContentItem>>)

  /** `findOneAndUpdate` casting: the given fields replace the stored ones, the
      trim setters run, and validators do not. */
  function ApplyUpdate(c: Course, u: CourseUpdate): (r: Course)
    ensures r.enrolledStudents == c.enrolledStudents && r.ratings == c.ratings
    ensures r.averageRating == c.averageRating && r.instructor == c.instructor && r.price == c.price
    ensures r.title == (if u.title.Some? then Trim(u.title.value) else c.title)
    ensures r.description == (if u.description.Some? then u.description.value else c.description)
    ensures r.category == (if u.category.Some? then Trim(u.category.value) else c.category)
    ensures r.tags == (if u.tags.Some? then TrimAll(u.tags.value) else c.tags)
    ensures r.pricing == (if u.pricing.Some? then u.pricing.value else c.pricing)
    ensures r.content == (if u.content.Some? then u.content.value else c.content)
  {
    c.(title := if u.title.Some? then Trim(u.title.value) else c.title,
       description := if u.description.Some? then u.description.value else c.description,
       category := if u.category.Some? then Trim(u.category.value) else c.category,
       tags := if u.tags.Some? then TrimAll(u.tags.value) else c.tags,
       pricing := if u.pricing.Some? then u.pricing.value else c.pricing,
       content := if u.content.Some? then u.content.value else c.content)
  }

  /** Replies of `updateCourse`. */
  datatype UpdateReply = UpdateNotFound | CourseUpdated(course: Course)  // 404 / 200

  /** `updateCourse`: an instructor's query also requires ownership; for any
      other role only the id is matched. No match is a 404 with no change. */
  function UpdateCourse(db: Db, courseId: Id, actor: Id, role: string, u: CourseUpdate): (r: Step<UpdateReply>)
    ensures r.reply.CourseUpdated? <==>
              courseId in db.courses && (role != "instructor" || db.courses[courseId].instructor == actor)
    ensures r.reply.UpdateNotFound? ==> r.db == db
    ensures r.db.users == db.users && r.db.ratings == db.ratings && r.db.courses.Keys == db.courses.Keys
    ensures forall c :: c in db.courses && c != courseId ==> r.db.courses[c] == db.courses[c]
    ensures r.reply.CourseUpdated? ==>
              && r.reply.course == r.db.courses[courseId]
              && r.reply.course == ApplyUpdate(db.courses[courseId], u)
  {
    if courseId in db.courses && (role != "instructor" || db.courses[courseId].instructor == actor) then
      var updated := ApplyUpdate(db.courses[courseId], u);
      Step(CourseUpdated(updated), db.(courses := db.courses[courseId := updated]))
    else Step(UpdateNotFound, db)
  }

  /** `updateCourse` with a body that carries `enrolledStudents`: the handler
      passes the body to the update unfiltered, so the list is overwritten with
      the same owner-or-id match as any other update. */
  function OverwriteStudents(db: Db, courseId: Id, actor: Id, role: string, students: seq<Id>): (r: Step<UpdateReply>)
    ensures r.reply.CourseUpdated? <==>
              courseId in db.courses && (role != "instructor" || db.courses[courseId].instructor == actor)
    ensures r.reply.UpdateNotFound? ==> r.db == db
    ensures r.db.users == db.users && r.db.ratings == db.ratings && r.db.courses.Keys == db.courses.Keys
    ensures r.reply.CourseUpdated? ==>
              r.db.courses[courseId] == db.courses[courseId].(enrolledStudents := students)
  {
    if courseId in db.courses && (role != "instructor" || db.courses[courseId].instructor == actor) then
      var updated := db.courses[courseId].(enrolledStudents := students);
      Step(CourseUpdated(updated), db.(courses := db.courses[courseId := updated]))
    else Step(UpdateNotFound, db)
  }

  /** One course owned by "i" and one student "s", neither enrolled. */
  function MirrorExample(): Db
  {
    Db(map["c" := Course("t", "d", "k", [], 0, "i", [], [], 0.0, [], None)],
       map["s" := User("n", "e", None, "student", None, [], [])],
       map[])
  }

  /** The owner's PATCH listing a student the student's own record does not
      list breaks the enrollment mirror that every other handler keeps. */
  lemma OverwriteBreaksMirror()
    ensures Enrollment.Consistent(MirrorExample())
    ensures !Enrollment.Consistent(OverwriteStudents(MirrorExample(), "c", "i", "instructor", ["s"]).db)
  {
    var d := OverwriteStudents(MirrorExample(), "c", "i", "instructor", ["s"]).db;
    assert "s" in d.courses["c"].enrolledStudents;
    assert "c" !in d.users["s"].enrolledCourses;
  }

  /** Under the route's gate (instructors only), an update only ever reaches a
      course the caller owns, and a non-owner changes nothing. */
  lemma UpdateOwnerOnly(db: Db, courseId: Id, actor: Id, u: CourseUpdate)
    ensures var r := UpdateCourse(db, courseId, actor, "instructor", u);
      && (r.reply.CourseUpdated? ==> db.courses[courseId].instructor == actor)
      && (courseId in db.courses && db.courses[courseId].instructor != actor ==> r.db == db)
  {
  }

  /** Updating a course's editable fields keeps the enrollment lists consistent. */
  lemma UpdatePreservesEnrollment(db: Db, courseId: Id, actor: Id, role: string, u: CourseUpdate)
    requires Enrollment.Consistent(db)
    ensures Enrollment.Consistent(UpdateCourse(db, courseId, actor, role, u).db)
  {
    var d := UpdateCourse(db, courseId, actor, role, u).db;
    assert forall c :: c in d.courses ==> d.courses[c].enrolledStudents == db.courses[c].enrolledStudents;
  }

  /** The value a query filter sees at a path of a stored course, for the
      string-valued paths it declares; an undeclared path has no value. */
  function PathValue(c: Course, path: string): (v: Option<string>)
    ensures path !in {"title", "description", "category", "instructor"} ==> v.None?
  {
    if path == "title" then Some(c.title)
    else if path == "description" then Some(c.description)
    else if path == "category" then Some(c.category)
    else if path == "instructor" then Some(c.instructor)
    else None
  }

  /** The `deleteCourse` filter: the id, and either the caller as instructor or
      the document's `userRole` equal to "admin". */
  predicate DeleteFilter(db: Db, courseId: Id, actor: Id)
  {
    courseId in db.courses
    && (PathValue(db.courses[courseId], "instructor") == Some(actor)
        || PathValue(db.courses[courseId], "userRole") == Some("admin"))
  }

  /** The filter matches exactly the caller's own course, whatever the caller's
      role: `userRole` is not a Course path, so the admin disjunct never holds. */
  lemma DeleteFilterOwnerOnly(db: Db, courseId: Id, actor: Id)
    ensures DeleteFilter(db, courseId, actor) <==>
              courseId in db.courses && db.courses[courseId].instructor == actor
  {
  }

  /** Replies of `deleteCourse`. */
  datatype DeleteReply = DeleteNotFound | CourseDeleted  // 404 / 200

  /** `deleteCourse`. No match is a 404 with no change. On a match, unless the
      caller's role is admin, the course id is pulled from its instructor's
      `createdCourses`; then the course is removed. Its ratings, and the
      students' `enrolledCourses` entries, are left as they are. */
  function DeleteCourse(db: Db, courseId: Id, actor: Id, role: string): (r: Step<DeleteReply>)
    ensures r.reply.CourseDeleted? <==> DeleteFilter(db, courseId, actor)
    ensures r.reply.DeleteNotFound? ==> r.db == db
    ensures r.db.ratings == db.ratings && r.db.users.Keys == db.users.Keys
    ensures r.reply.CourseDeleted? ==> r.db.courses == db.courses - {courseId}
    ensures r.reply.CourseDeleted? && role == "admin" ==> r.db.users == db.users
    ensures r.reply.CourseDeleted? && role != "admin" && actor in db.users ==>
              && courseId !in r.db.users[actor].createdCourses
              && r.db.users == db.users[actor := db.users[actor].(createdCourses := RemoveAll(db.users[actor].createdCourses, courseId))]
    ensures r.reply.CourseDeleted? && role != "admin" && actor !in db.users ==> r.db.users == db.users
  {
    if !DeleteFilter(db, courseId, actor) then Step(DeleteNotFound, db)
    else
      var owner := db.courses[courseId].instructor;
      var users :=
        if role != "admin" && owner in db.users then
          db.users[owner := db.users[owner].(createdCourses := RemoveAll(db.users[owner].createdCourses, courseId))]
        else db.users;
      Step(CourseDeleted, db.(courses := db.courses - {courseId}, users := users))
  }

  /** Deleting a course keeps the remaining enrollment lists consistent: the
      students' entries for the deleted course no longer mirror any course. */
  lemma DeletePreservesEnrollment(db: Db, courseId: Id, actor: Id, role: string)
    requires Enrollment.Consistent(db)
    ensures Enrollment.Consistent(DeleteCourse(db, courseId, actor, role).db)
  {
    var d := DeleteCourse(db, courseId, actor, role).db;
    assert forall u :: u in d.users ==> d.users[u].enrolledCourses == db.users[u].enrolledCourses;
  }
}

=== FILE: detail.dfy ===
/** The course page (CourseDetail.jsx): how the fetched course and the enroll
    click update the page state, and which view and buttons the page renders. */
module CourseDetailPage {
  import opened Common
  import Models
  import Enrollment
  import Courses
  import opened AuthSlice

  /** The fetched course as the page reads it. `instructorId` is the populated
      instructor's `_id`, absent when the instructor reference is empty. */
  datatype CourseView = CourseView(
    instructorId: Option<Id>,
    pricing: int,
    content: Option<seq<Models.ContentItem>>,
    isEnrolled: Option<bool>)

  /** The page's own state. */
  datatype Page = Page(course: Option<CourseView>, loading: bool, error: Option<string>, isEnrolled: bool)

  const InitialPage: Page := Page(None, true, None, false)

  /** How the course fetch ended: a 2xx body, a non-2xx status with the body's
      message and the status text, or an exception with its message. */
  datatype FetchResult =
    | FetchOk(data: CourseView)
    | FetchFailed(status: nat, message: Option<string>, statusText: string)
    | FetchThrew(reason: string)

  function Digit(d: nat): char
    requires d < 10
  {
    "0123456789"[d]
  }

  /** The decimal text of a status code. */
  function NatToString(n: nat): (s: string)
    ensures |s| >= 1
    decreases n
  {
    if n < 10 then [Digit(n)] else NatToString(n / 10) + [Digit(n % 10)]
  }

  const ALREADY_ENROLLED := "already enrolled"
  const HTTP_ERROR_PREFIX := "HTTP error! status: "

  /** The text of the error thrown for a non-2xx reply. */
  function HttpErrorText(status: nat, message: Option<string>, statusText: string): (s: string)
    ensures StartsWith(s, HTTP_ERROR_PREFIX)
  {
    HTTP_ERROR_PREFIX + NatToString(status) + ", Message: "
      + (if Present(message) then message.value else statusText)
  }

  /** Whether a failed fetch is the backend's "already enrolled" refusal. */
  predicate AlreadyEnrolledReply(status: nat, message: Option<string>)
  {
    status == 400 && Present(message) && Contains(message.value, ALREADY_ENROLLED)
  }

  /** The fetch effect's outcome. The "already enrolled" 400 marks the student
      enrolled and clears course and error; any other failure stores its
      message, clears the course and the flag; a 2xx stores the course and its
      `isEnrolled` flag. Loading ends in every case. */
  function OnCourseFetched(p: Page, f: FetchResult): (p': Page)
    ensures !p'.loading
    ensures f.FetchFailed? && AlreadyEnrolledReply(f.status, f.message) ==>
              p' == Page(None, false, None, true)
    ensures f.FetchFailed? && !AlreadyEnrolledReply(f.status, f.message) ==>
              p' == Page(None, false, Some(HttpErrorText(f.status, f.message, f.statusText)), false)
    ensures f.FetchThrew? ==> p' == Page(None, false, Some(f.reason), false)
    ensures f.FetchOk? ==>
              p'.course == Some(f.data) && p'.error.None?
              && (p'.isEnrolled <==> f.data.isEnrolled == Some(true))
  {
    match f
    case FetchOk(data) => Page(Some(data), false, None, data.isEnrolled == Some(true))
    case FetchFailed(status, message, statusText) =>
      if AlreadyEnrolledReply(status, message) then Page(None, false, None, true)
      else Page(None, false, Some(HttpErrorText(status, message, statusText)), false)
    case FetchThrew(reason) => Page(None, false, Some(reason), false)
  }

  /** The backend's enrollment refusal carries the phrase the page looks for. */
  lemma BackendRefusalIsRecognised()
    ensures AlreadyEnrolledReply(400, Some(Enrollment.ALREADY_ENROLLED_MESSAGE))
  {
    var m := Enrollment.ALREADY_ENROLLED_MESSAGE;
    assert m == "Student " + ALREADY_ENROLLED + " in this course";
    assert m[8..8 + |ALREADY_ENROLLED|] == ALREADY_ENROLLED;
    assert OccursAt(m, ALREADY_ENROLLED, 8);
  }

  /** The JSON `getCourseById` sends, as the page receives it. */
  function AsFetchResult(r: Courses.ViewReply): FetchResult
  {
    match r
    case CourseNotFound => FetchFailed(404, Some("Course not found"), "Not Found")
    case CourseFound(c, isEnrolled) => FetchOk(CourseView(Some(c.instructor), c.pricing, Some(c.content), Some(isEnrolled)))
  }

  /** The course route reads no credentials, so the page is fed the reply for
      an anonymous caller: it never ends up marked enrolled, whoever is signed in. */
  lemma RoutedFetchNeverEnrolled(db: Models.Db, courseId: Id, p: Page)
    ensures !OnCourseFetched(p, AsFetchResult(Courses.GetCourseById(db, courseId, None))).isEnrolled
  {
    assert "Course not found"[0] != ALREADY_ENROLLED[0];
  }

  /** The enroll request's outcome, when one is sent. */
  datatype EnrollResult = EnrollOk | EnrollRefused(message: Option<string>) | EnrollThrew(reason: string)

  /** The click's effect: the page after it, whether a request went out, and
      whether the page moved on to the payment page. */
  datatype Click = Click(page: Page, requested: bool, toPayment: bool)

  function Role(a: AuthState): Option<string>
  {
    if a.user.Some? then a.user.value.role else None
  }

  function UserId(a: AuthState): Option<Id>
  {
    if a.user.Some? then a.user.value.id else None
  }

  /** `handleEnroll`: no request unless signed in, a student and not yet
      enrolled. After a request, a 2xx on a priced course goes to the payment
      page, on any other course marks the student enrolled; a refusal or an
      exception stores a message, falling back to a fixed text when the reply
      has none. */
  function HandleEnroll(p: Page, a: AuthState, res: EnrollResult): (c: Click)
    ensures c.requested <==> a.isLoggedIn && Role(a) == Some("student") && !p.isEnrolled
    ensures !c.requested ==> c.page == p && !c.toPayment
    ensures c.toPayment ==> c.requested && res.EnrollOk? && c.page == p
    ensures c.requested && res.EnrollOk? ==>
              (c.toPayment <==> p.course.Some? && p.course.value.pricing > 0)
    ensures c.requested && res.EnrollOk? && !c.toPayment ==> c.page == p.(isEnrolled := true)
    ensures c.requested && !res.EnrollOk? ==>
              c.page.course == p.course && c.page.isEnrolled == p.isEnrolled && Present(c.page.error)
  {
    if !a.isLoggedIn || Role(a) != Some("student") || p.isEnrolled then Click(p, false, false)
    else
      match res
      case EnrollOk =>
        if p.course.Some? && p.course.value.pricing > 0 then Click(p, true, true)
        else Click(p.(isEnrolled := true), true, false)
      case EnrollRefused(message) =>
        Click(p.(error := Some(if Present(message) then message.value else "Enrollment failed")), true, false)
      case EnrollThrew(reason) =>
        Click(p.(error := Some(if reason != "" then reason else "An error occurred during enrollment.")), true, false)
  }

  /** The JSON `enrollStudent` sends, as the click receives it: a 2xx only for
      an enrollment, otherwise a refusal carrying the controller's message. */
  function AsEnrollResult(r: Enrollment.EnrollReply): (res: EnrollResult)
    ensures res.EnrollOk? <==> r.Enrolled?
    ensures res.EnrollRefused? ==> Present(res.message)
    ensures r.PaidCourse? ==> res == EnrollRefused(Some(Enrollment.PAID_COURSE_MESSAGE))
  {
    match r
    case Enrolled(_) => EnrollOk
    case EnrollNotFound => EnrollRefused(Some("Course or student not found"))
    case EnrollAlreadyEnrolled => EnrollRefused(Some(Enrollment.ALREADY_ENROLLED_MESSAGE))
    case PaidCourse => EnrollRefused(Some(Enrollment.PAID_COURSE_MESSAGE))
  }

  /** The click against the shipped backend: on a course the schema accepted,
      `enrollStudent` never enrolls, so the page never goes to payment and
      never marks the student enrolled. A request only stores the refusal,
      which for a known student not yet on the course is the paid-course text. */
  lemma ClickOnSchemaCourseOnlyRefuses(db: Models.Db, courseId: Id, studentId: Id, p: Page, a: AuthState)
    requires courseId in db.courses && Models.CourseConforms(db.courses[courseId])
    ensures var c := HandleEnroll(p, a, AsEnrollResult(Enrollment.EnrollStudent(db, courseId, studentId).reply));
      && !c.toPayment
      && c.page.course == p.course && c.page.isEnrolled == p.isEnrolled
      && (c.requested ==> Present(c.page.error))
      && (c.requested && studentId in db.users && studentId !in db.courses[courseId].enrolledStudents ==>
            c.page.error == Some(Enrollment.PAID_COURSE_MESSAGE))
  {
    Enrollment.EnrollNeverFreeOnSchemaCourses(db, courseId, studentId);
  }

  /** What the page renders. */
  datatype Screen =
    | Loading
    | AlreadyEnrolledView
    | ErrorView(message: string)
    | NotFoundView
    | Details(editButton: bool, enrollButton: bool, contentShown: bool)

  predicate IsStudent(a: AuthState)
  {
    Role(a) == Some("student")
  }

  /** The render: loading first, then the already-enrolled view for a signed-in
      enrolled student, then a non-empty error, then "not found" without a
      course, and otherwise the details with the owner's Edit button, the
      student's Enroll button and the content list. */
  function Render(p: Page, a: AuthState): (s: Screen)
    ensures s.Loading? <==> p.loading
    ensures s.AlreadyEnrolledView? <==> !p.loading && a.isLoggedIn && IsStudent(a) && p.isEnrolled
    ensures s.ErrorView? ==> p.error == Some(s.message) && s.message != ""
    ensures s.Details? <==>
              !p.loading && !(a.isLoggedIn && IsStudent(a) && p.isEnrolled)
              && !Present(p.error) && p.course.Some?
    ensures s.Details? ==>
              && (s.editButton <==>
                    a.isLoggedIn && Role(a) == Some("instructor")
                    && p.course.value.instructorId.Some? && UserId(a) == p.course.value.instructorId)
              && (s.enrollButton <==> a.isLoggedIn && IsStudent(a) && !p.isEnrolled)
              && (s.contentShown <==>
                    p.course.value.content.Some? && |p.course.value.content.value| > 0
                    && (!IsStudent(a) || p.isEnrolled))
  {
    if p.loading then Loading
    else if a.isLoggedIn && IsStudent(a) && p.isEnrolled then AlreadyEnrolledView
    else if Present(p.error) then ErrorView(p.error.value)
    else if p.course.None? then NotFoundView
    else
      var c := p.course.value;
      Details(
        a.isLoggedIn && Role(a) == Some("instructor") && c.instructorId.Some? && UserId(a) == c.instructorId,
        a.isLoggedIn && IsStudent(a) && !p.isEnrolled,
        c.content.Some? && |c.content.value| > 0 && (!IsStudent(a) || p.isEnrolled))
  }

  /** In every auth state the slice can reach, a student is never shown the
      content list: an enrolled student gets the already-enrolled view instead,
      and a student who is not enrolled fails the content condition. */
  lemma StudentsNeverSeeContent(p: Page, acts: seq<Action>)
    requires IsStudent(Run(Initial, acts))
    ensures var s := Render(p, Run(Initial, acts));
      !(s.Details? && s.contentShown)
  {
    ReachableSignedOutIsEmpty(Initial, acts);
  }

  /** A visitor with no role (nobody signed in) is shown the content of any
      course that has some. */
  lemma VisitorsSeeContent(p: Page)
    requires !p.loading && !Present(p.error) && p.course.Some?
    requires p.course.value.content.Some? && |p.course.value.content.value| > 0
    ensures Render(p, Initial) == Details(false, false, true)
  {
  }
}

=== FILE: editor.dfy ===
/** The course editor page (EditCourse.jsx): the list of content items with at
    most one item open for editing, and the form it submits. */
module ContentEditor {
  import opened Common
  import Models
  import Tags

  /** A content item as the page holds it: a plain object from field name to
      value ("type", "title", "url", "text"). */
  type Item = map<string, string>

  /** The blank item the "Add ..." buttons append; its fields depend on the type. */
  function NewItem(kind: string): (it: Item)
    ensures "type" in it && "title" in it && it["type"] == kind && it["title"] == ""
    ensures "url" in it <==> kind == "video" || kind == "resource" || kind == "pdf"
    ensures "text" in it <==> kind == "quiz"
    ensures "url" in it ==> it["url"] == ""
    ensures "text" in it ==> it["text"] == ""
    ensures it.Keys <= {"type", "title", "url", "text"}
  {
    if kind == "video" || kind == "resource" then map["type" := kind, "title" := "", "url" := ""]
    else if kind == "pdf" then map["type" := kind, "title" := "", "url" := ""]
    else if kind == "quiz" then map["type" := kind, "title" := "", "text" := ""]
    else map["type" := kind, "title" := ""]
  }

  /** The list with the element at `i` filtered out; an index outside the list
      filters nothing. */
  function RemoveAt(s: seq<Item>, i: int): (r: seq<Item>)
    ensures (0 <= i < |s|) ==> |r| == |s| - 1
    ensures !(0 <= i < |s|) ==> r == s
    ensures forall j :: 0 <= j < i && j < |r| ==> r[j] == s[j]
    ensures forall j :: 0 <= i <= j < |r| ==> r[j] == s[j + 1]
  {
    if 0 <= i < |s| then s[..i] + s[i + 1..] else s
  }

  /** The editor's state: the items, the index of the item open for editing
      (`null` when none) and whether that item is a freshly added one. */
  datatype Editor = Editor(items: seq<Item>, editingIndex: Option<int>, isAddingNew: bool)

  /** The editor's invariant: the open index designates an item, and a fresh
      item is open and is the last one. */
  predicate Valid(e: Editor)
  {
    && (e.editingIndex.Some? ==> 0 <= e.editingIndex.value < |e.items|)
    && (e.isAddingNew ==> e.editingIndex == Some(|e.items| - 1))
  }

  /** The item open for editing. */
  function Open(e: Editor): Item
    requires Valid(e) && e.editingIndex.Some?
  {
    e.items[e.editingIndex.value]
  }

  /** `handleAddContent`: one blank item appended and opened as a new item. */
  function AddContent(e: Editor, kind: string): (e': Editor)
    ensures e'.items == e.items + [NewItem(kind)]
    ensures e'.editingIndex == Some(|e.items|) && e'.isAddingNew
    ensures Valid(e') && Open(e') == NewItem(kind)
  {
    Editor(e.items + [NewItem(kind)], Some(|e.items|), true)
  }

  /** `handleEditContent`: open an existing item. */
  function EditContent(e: Editor, i: int): (e': Editor)
    ensures e'.items == e.items && e'.editingIndex == Some(i) && !e'.isAddingNew
    ensures 0 <= i < |e.items| ==> Valid(e') && Open(e') == e.items[i]
  {
    Editor(e.items, Some(i), false)
  }

  /** `handleRemoveContent`: after the user confirms, the item at `i` is
      filtered out; an open item at `i` is closed, an open item after `i` has
      its index moved down, any other open index is kept. So the editor stays
      valid and an item that stays open is the same item as before. */
  function RemoveContent(e: Editor, i: int, confirmed: bool): (e': Editor)
    ensures !confirmed ==> e' == e
    ensures confirmed ==> e'.items == RemoveAt(e.items, i)
    ensures confirmed && e.editingIndex == Some(i) ==> e'.editingIndex.None? && !e'.isAddingNew
    ensures confirmed && e.editingIndex.Some? && e.editingIndex.value > i ==>
              e'.editingIndex == Some(e.editingIndex.value - 1) && e'.isAddingNew == e.isAddingNew
    ensures confirmed && e.editingIndex.Some? && e.editingIndex.value < i ==> e' == e.(items := e'.items)
    ensures confirmed && e.editingIndex.None? ==> e' == e.(items := e'.items)
    ensures Valid(e) && 0 <= i < |e.items| ==>
              && Valid(e')
              && (e'.editingIndex.Some? ==> e.editingIndex.Some? && Open(e') == Open(e))
  {
    if !confirmed then e
    else
      var items := RemoveAt(e.items, i);
      if e.editingIndex == Some(i) then Editor(items, None, false)
      else if e.editingIndex.Some? && e.editingIndex.value > i then
        Editor(items, Some(e.editingIndex.value - 1), e.isAddingNew)
      else Editor(items, e.editingIndex, e.isAddingNew)
  }

  /** `handleSaveContent`: the open item closes; the edits were already in the list. */
  function SaveContent(e: Editor): (e': Editor)
    ensures e'.items == e.items && e'.editingIndex.None? && !e'.isAddingNew
    ensures Valid(e')
  {
    Editor(e.items, None, false)
  }

  /** `handleCancelEdit`: a fresh item is filtered out again; an existing item
      just closes. The list's edits to an existing item are not undone. */
  function CancelEdit(e: Editor): (e': Editor)
    ensures e'.editingIndex.None? && !e'.isAddingNew && Valid(e')
    ensures !e.isAddingNew ==> e'.items == e.items
    ensures Valid(e) && e.isAddingNew ==> e'.items == e.items[..|e.items| - 1]
  {
    // With `editingIndex` null the filter's `i !== null` keeps every item.
    var items := if e.isAddingNew && e.editingIndex.Some? then RemoveAt(e.items, e.editingIndex.value) else e.items;
    Editor(items, None, false)
  }

  /** Adding an item and cancelling it restores the editor it started from. */
  lemma AddThenCancel(e: Editor, kind: string)
    requires e.editingIndex.None? && !e.isAddingNew
    ensures CancelEdit(AddContent(e, kind)) == e
  {
    assert (e.items + [NewItem(kind)])[..|e.items|] == e.items;
  }

  /** `handleContentInputChange`: one field of item `i` takes the typed value. */
  function ChangeField(e: Editor, i: int, name: string, value: string): (e': Editor)
    requires 0 <= i < |e.items|
    ensures |e'.items| == |e.items| && e'.editingIndex == e.editingIndex && e'.isAddingNew == e.isAddingNew
    ensures e'.items[i].Keys == e.items[i].Keys + {name}
    ensures name in e'.items[i] && e'.items[i][name] == value
    ensures forall f :: f in e.items[i] && f != name ==> e'.items[i][f] == e.items[i][f]
    ensures forall j :: 0 <= j < |e.items| && j != i ==> e'.items[j] == e.items[j]
  {
    e.(items := e.items[i := e.items[i][name := value]])
  }

  /** The actions the page's buttons and inputs trigger. */
  datatype Action =
    | Add(kind: string)
    | Edit(index: int)
    | Remove(index: int, confirmed: bool)
    | Save
    | Cancel
    | Change(index: int, name: string, value: string)

  /** Which actions the rendered page offers: the add buttons only while no item
      is open; Edit and Remove on every row that is not the open one; Save,
      Cancel and the field inputs only on the open row. */
  predicate Enabled(e: Editor, a: Action)
  {
    match a
    case Add(_) => !e.isAddingNew && e.editingIndex.None?
    case Edit(i) => 0 <= i < |e.items| && e.editingIndex != Some(i)
    case Remove(i, _) => 0 <= i < |e.items| && e.editingIndex != Some(i)
    case Save => e.editingIndex.Some?
    case Cancel => e.editingIndex.Some?
    case Change(i, _, _) => 0 <= i < |e.items| && e.editingIndex == Some(i)
  }

  function Apply(e: Editor, a: Action): Editor
  {
    match a
    case Add(kind) => AddContent(e, kind)
    case Edit(i) => EditContent(e, i)
    case Remove(i, confirmed) => RemoveContent(e, i, confirmed)
    case Save => SaveContent(e)
    case Cancel => CancelEdit(e)
    case Change(i, name, value) =>
      if 0 <= i < |e.items| then ChangeField(e, i, name, value) else e
  }

  /** Every offered action keeps the editor valid. */
  lemma ApplyPreservesValid(e: Editor, a: Action)
    requires Valid(e) && Enabled(e, a)
    ensures Valid(Apply(e, a))
  {
  }

  /** Any sequence of offered actions, applied in order; `None` once an action
      is not offered by the page. */
  function Run(e: Editor, acts: seq<Action>): Option<Editor>
    decreases |acts|
  {
    if |acts| == 0 then Some(e)
    else if !Enabled(e, acts[0]) then None
    else Run(Apply(e, acts[0]), acts[1..])
  }

  /** The editor stays valid across every run the page allows. */
  lemma {:induction false} RunPreservesValid(e: Editor, acts: seq<Action>)
    requires Valid(e) && Run(e, acts).Some?
    ensures Valid(Run(e, acts).value)
    decreases |acts|
  {
    if |acts| > 0 {
      ApplyPreservesValid(e, acts[0]);
      RunPreservesValid(Apply(e, acts[0]), acts[1..]);
    }
  }

  /** The form fields besides the content list. */
  datatype Form = Form(title: string, description: string, category: string, pricing: int, tags: string, imageUrl: string)

  /** The body of the PATCH request. */
  datatype Payload = Payload(
    title: string, description: string, category: string, pricing: int,
    tags: seq<string>, imageUrl: string, content: seq<Item>)

  datatype SubmitResult = Refused(message: string) | Send(payload: Payload)

  const SAVE_OPEN_ITEM_FIRST := "Please save or cancel the current content item edit before saving the course."

  /** The `handleSubmit` guard and request body: refused while an item is open;
      otherwise the form is sent with the tag text parsed into a list and the
      current content list. */
  function Submit(e: Editor, f: Form): (r: SubmitResult)
    ensures r.Refused? <==> e.editingIndex.Some?
    ensures r.Refused? ==> r.message == SAVE_OPEN_ITEM_FIRST
    ensures r.Send? ==>
              && r.payload.content == e.items
              && r.payload.tags == Tags.ParseTags(f.tags)
              && Models.AllTrimmed(r.payload.tags)
              && r.payload.title == f.title && r.payload.description == f.description
              && r.payload.category == f.category && r.payload.pricing == f.pricing
              && r.payload.imageUrl == f.imageUrl
  {
    if e.editingIndex.Some? then Refused(SAVE_OPEN_ITEM_FIRST)
    else Send(Payload(f.title, f.description, f.category, f.pricing, Tags.ParseTags(f.tags), f.imageUrl, e.items))
  }

  /** A content item as the page receives it: the fields it carries. */
  function ToItem(c: Models.ContentItem): (it: Item)
    ensures "title" in it <==> c.title.Some?
    ensures "type" in it <==> c.kind.Some?
    ensures "url" in it <==> c.url.Some?
    ensures "text" in it <==> c.text.Some?
    ensures "title" in it ==> it["title"] == c.title.value
    ensures "type" in it ==> it["type"] == c.kind.value
    ensures "url" in it ==> it["url"] == c.url.value
    ensures "text" in it ==> it["text"] == c.text.value
  {
    var m0: Item := map[];
    var m1 := if c.title.Some? then m0["title" := c.title.value] else m0;
    var m2 := if c.kind.Some? then m1["type" := c.kind.value] else m1;
    var m3 := if c.url.Some? then m2["url" := c.url.value] else m2;
    if c.text.Some? then m3["text" := c.text.value] else m3
  }

  /** The state after the course is fetched: the form filled from the course
      (tags joined with ", "; the course carries no image URL, so that field is
      empty) and its content list with nothing open. */
  function Load(c: Models.Course): (r: (Editor, Form))
    ensures Valid(r.0) && r.0.editingIndex.None? && !r.0.isAddingNew
    ensures |r.0.items| == |c.content|
    ensures forall i :: 0 <= i < |c.content| ==> r.0.items[i] == ToItem(c.content[i])
    ensures r.1.title == c.title && r.1.description == c.description
    ensures r.1.category == c.category && r.1.pricing == c.pricing
    ensures r.1.tags == Tags.JoinTags(c.tags) && r.1.imageUrl == ""
  {
    (Editor(seq(|c.content|, i requires 0 <= i < |c.content| => ToItem(c.content[i])), None, false),
     Form(c.title, c.description, c.category, c.pricing, Tags.JoinTags(c.tags), ""))
  }

  /** The schema's cast of a content object the server receives: the four
      declared fields are read, any other key is dropped. */
  function FromItem(it: Item): (c: Models.ContentItem)
    ensures c.title.Some? <==> "title" in it
    ensures c.kind.Some? <==> "type" in it
    ensures c.url.Some? <==> "url" in it
    ensures c.text.Some? <==> "text" in it
  {
    Models.ContentItem(
      if "title" in it then Some(it["title"]) else None,
      if "type" in it then Some(it["type"]) else None,
      if "url" in it then Some(it["url"]) else None,
      if "text" in it then Some(it["text"]) else None)
  }

  /** A stored content item survives the trip to the page and back. */
  lemma ItemRoundTrip(c: Models.ContentItem)
    ensures FromItem(ToItem(c)) == c
  {
  }

  /** Saving a freshly loaded course unchanged sends back its title,
      description, category, pricing and content, and its tags too whenever
      they are comma-free and non-empty; the content the server casts from the
      payload is the stored content. */
  lemma LoadThenSubmit(c: Models.Course)
    requires Models.CourseConforms(c)
    requires forall i :: 0 <= i < |c.tags| ==> c.tags[i] != "" && Tags.CommaFree(c.tags[i])
    ensures var (e, f) := Load(c);
      var r := Submit(e, f);
      && r.Send?
      && r.payload.tags == c.tags
      && r.payload.title == c.title && r.payload.description == c.description
      && r.payload.category == c.category && r.payload.pricing == c.pricing
      && |r.payload.content| == |c.content|
      && (forall i :: 0 <= i < |c.content| ==> r.payload.content[i] == ToItem(c.content[i]))
      && (forall i :: 0 <= i < |c.content| ==> FromItem(r.payload.content[i]) == c.content[i])
  {
    Tags.TagsRoundTrip(c.tags);
    forall i | 0 <= i < |c.content|
      ensures FromItem(ToItem(c.content[i])) == c.content[i]
    {
      ItemRoundTrip(c.content[i]);
    }
  }
}

=== FILE: enrollment.dfy ===
/** The enrollment controller: free enrollment, the membership check, PayPal
    order creation and PayPal order capture. Each handler is an ordered chain
    of guards followed, on success, by the dual write course -> student and
    student -> course. The payment gateway is an input: the reply it gives to
    the request the handler sends. */
module Enrollment {
  import opened Common
  import opened Models

  const ALREADY_ENROLLED_MESSAGE: string := "Student already enrolled in this course"
  const PAID_COURSE_MESSAGE: string := "This is a paid course, please use the PayPal payment flow."

  /** Replies of `enrollStudent`. */
  datatype EnrollReply =
    | EnrollNotFound            // 404: course or student missing
    | EnrollAlreadyEnrolled     // 400
    | PaidCourse                // 400: "please use the PayPal payment flow"
    | Enrolled(course: Course)  // 200

  function EnrollStatus(r: EnrollReply): int
  {
    match r
    case EnrollNotFound => 404
    case EnrollAlreadyEnrolled => 400
    case PaidCourse => 400
    case Enrolled(_) => 200
  }

  /** The membership lists are duplicate-free on both sides and mirror each
      other: a student is listed on a course exactly when the course is listed
      on the student. */
  ghost predicate Consistent(db: Db)
  {
    && (forall c :: c in db.courses ==> NoDup(db.courses[c].enrolledStudents))
    && (forall u :: u in db.users ==> NoDup(db.users[u].enrolledCourses))
    && (forall c, u :: c in db.courses && u in db.users ==>
          (u in db.courses[c].enrolledStudents <==> c in db.users[u].enrolledCourses))
  }

  /** The two pushes of a successful enrollment: the student id onto the
      course's list and the course id onto the student's list. Nothing else in
      the store changes. */
  function DualWrite(db: Db, courseId: Id, studentId: Id): (d: Db)
    requires courseId in db.courses && studentId in db.users
    ensures d.courses.Keys == db.courses.Keys && d.users.Keys == db.users.Keys
    ensures d.ratings == db.ratings
    ensures d.courses[courseId].enrolledStudents == db.courses[courseId].enrolledStudents + [studentId]
    ensures d.users[studentId].enrolledCourses == db.users[studentId].enrolledCourses + [courseId]
    ensures d.courses[courseId] == db.courses[courseId].(enrolledStudents := d.courses[courseId].enrolledStudents)
    ensures d.users[studentId] == db.users[studentId].(enrolledCourses := d.users[studentId].enrolledCourses)
    ensures forall c :: c in db.courses && c != courseId ==> d.courses[c] == db.courses[c]
    ensures forall u :: u in db.users && u != studentId ==> d.users[u] == db.users[u]
  {
    var course := db.courses[courseId];
    var student := db.users[studentId];
    db.(courses := db.courses[courseId := course.(enrolledStudents := course.enrolledStudents + [studentId])],
        users := db.users[studentId := student.(enrolledCourses := student.enrolledCourses + [courseId])])
  }

  /** The dual write of a student not yet on the course keeps the store consistent. */
  lemma DualWritePreserves(db: Db, courseId: Id, studentId: Id)
    requires Consistent(db)
    requires courseId in db.courses && studentId in db.users
    requires studentId !in db.courses[courseId].enrolledStudents
    ensures Consistent(DualWrite(db, courseId, studentId))
  {
    var d := DualWrite(db, courseId, studentId);
    assert courseId !in db.users[studentId].enrolledCourses;
    NoDupAppend(db.courses[courseId].enrolledStudents, studentId);
    NoDupAppend(db.users[studentId].enrolledCourses, courseId);
    forall c, u | c in d.courses && u in d.users
      ensures u in d.courses[c].enrolledStudents <==> c in d.users[u].enrolledCourses
    {
      if c == courseId && u == studentId {
      } else if c == courseId {
        assert d.users[u] == db.users[u];
      } else if u == studentId {
        assert d.courses[c] == db.courses[c];
      } else {
        assert d.users[u] == db.users[u] && d.courses[c] == db.courses[c];
      }
    }
  }

  /** `enrollStudent`. The guards run in the source's order: a missing course or
      student (404), a student already on the course (400), then the price the
      controller reads: exactly 0 enrolls, anything else, absent included, is
      the paid-course 400. Only the free branch writes. */
  function EnrollStudent(db: Db, courseId: Id, studentId: Id): (r: Step<EnrollReply>)
    ensures courseId !in db.courses || studentId !in db.users ==> r == Step(EnrollNotFound, db)
    ensures (courseId in db.courses && studentId in db.users
             && studentId in db.courses[courseId].enrolledStudents)
              ==> r == Step(EnrollAlreadyEnrolled, db)
    ensures r.reply.Enrolled? <==>
              && courseId in db.courses && studentId in db.users
              && studentId !in db.courses[courseId].enrolledStudents
              && db.courses[courseId].price == Some(0)
    ensures r.reply.PaidCourse? ==> r.db == db && db.courses[courseId].price != Some(0)
    ensures (&& courseId in db.courses && studentId in db.users
             && studentId !in db.courses[courseId].enrolledStudents
             && db.courses[courseId].price != Some(0))
              ==> r == Step(PaidCourse, db)
    ensures !r.reply.Enrolled? ==> r.db == db
    ensures r.reply.Enrolled? ==>
              && courseId in r.db.courses && studentId in r.db.users
              && studentId in r.db.courses[courseId].enrolledStudents
              && courseId in r.db.users[studentId].enrolledCourses
              && r.reply.course == r.db.courses[courseId]
              && r.db.ratings == db.ratings
    ensures r.reply.Enrolled? ==> r.db == DualWrite(db, courseId, studentId)
  {
    if courseId !in db.courses || studentId !in db.users then Step(EnrollNotFound, db)
    else if studentId in db.courses[courseId].enrolledStudents then Step(EnrollAlreadyEnrolled, db)
    else if db.courses[courseId].price == Some(0) then
      var d := DualWrite(db, courseId, studentId);
      Step(Enrolled(d.courses[courseId]), d)
    else Step(PaidCourse, db)
  }

  /** The shipped consequence of reading the undeclared `price` path: on any
      course the schema accepted, `enrollStudent` never enrolls and never
      changes the store. */
  lemma EnrollNeverFreeOnSchemaCourses(db: Db, courseId: Id, studentId: Id)
    requires courseId in db.courses && CourseConforms(db.courses[courseId])
    ensures !EnrollStudent(db, courseId, studentId).reply.Enrolled?
    ensures EnrollStudent(db, courseId, studentId).db == db
  {
  }

  lemma EnrollPreserves(db: Db, courseId: Id, studentId: Id)
    requires Consistent(db)
    ensures Consistent(EnrollStudent(db, courseId, studentId).db)
  {
    if EnrollStudent(db, courseId, studentId).reply.Enrolled? {
      DualWritePreserves(db, courseId, studentId);
    }
  }

  /** After a successful enrollment from a consistent store, the student is on
      the course's list exactly once and the course on the student's list
      exactly once. */
  lemma EnrolledExactlyOnce(db: Db, courseId: Id, studentId: Id)
    requires Consistent(db)
    requires EnrollStudent(db, courseId, studentId).reply.Enrolled?
    ensures var d := EnrollStudent(db, courseId, studentId).db;
      && Count(d.courses[courseId].enrolledStudents, studentId) == 1
      && Count(d.users[studentId].enrolledCourses, courseId) == 1
  {
    var d := EnrollStudent(db, courseId, studentId).db;
    EnrollPreserves(db, courseId, studentId);
    NoDupCountOne(d.courses[courseId].enrolledStudents, studentId);
    NoDupCountOne(d.users[studentId].enrolledCourses, courseId);
  }

  /** Replies of `checkEnrollment`. */
  datatype CheckReply = CheckNotFound | EnrollmentStatus(isEnrolled: bool)

  /** `checkEnrollment`: a read of list membership, or 404 for a missing course. */
  function CheckEnrollment(db: Db, courseId: Id, studentId: Id): (r: CheckReply)
    ensures r.CheckNotFound? <==> courseId !in db.courses
    ensures r.EnrollmentStatus? ==> (r.isEnrolled <==> studentId in db.courses[courseId].enrolledStudents)
  {
    if courseId !in db.courses then CheckNotFound
    else EnrollmentStatus(studentId in db.courses[courseId].enrolledStudents)
  }

  /** Once enrolled, the membership check reports it. */
  lemma CheckAfterEnroll(db: Db, courseId: Id, studentId: Id)
    requires EnrollStudent(db, courseId, studentId).reply.Enrolled?
    ensures CheckEnrollment(EnrollStudent(db, courseId, studentId).db, courseId, studentId) == EnrollmentStatus(true)
  {
  }

  // ---------------------------------------------------------------- PayPal

  /** A HATEOAS link of a created payment. */
  datatype Link = Link(rel: string, href: string)

  /** What the gateway answers to a create-payment request. */
  datatype CreateReply = PaymentCreated(links: seq<Link>) | CreateFailed(response: string)

  /** The one line item of an order; prices are in cents (the source formats them
      with two decimals). */
  datatype OrderItem = OrderItem(name: string, sku: Id, priceCents: int, currency: string, quantity: nat)

  /** The create-payment request the handler builds. */
  datatype OrderRequest = OrderRequest(
    intent: string,
    paymentMethod: string,
    returnUrl: string,
    cancelUrl: string,
    items: seq<OrderItem>,
    amountCurrency: string,
    totalCents: int,
    description: string)

  /** Builds the sale request for one enrollment: a single item bought once, in
      USD, priced at the order total. */
  function BuildOrderRequest(clientUrl: string, courseId: Id, title: string, cents: int): (r: OrderRequest)
    ensures |r.items| == 1
    ensures r.items[0].quantity == 1 && r.items[0].sku == courseId && r.items[0].name == title
    ensures r.items[0].currency == "USD" && r.amountCurrency == "USD"
    ensures r.items[0].priceCents == r.totalCents == cents
    ensures r.returnUrl == clientUrl + "/payment/" + courseId + "/success"
    ensures r.cancelUrl == clientUrl + "/payment/" + courseId + "/cancel"
  {
    OrderRequest(
      "sale", "paypal",
      clientUrl + "/payment/" + courseId + "/success",
      clientUrl + "/payment/" + courseId + "/cancel",
      [OrderItem(title, courseId, cents, "USD", 1)],
      "USD", cents,
      "Enrollment for course: " + title)
  }

  /** Index of the first link whose rel is `approval_url`, if any. */
  function FirstApproval(links: seq<Link>): (r: Option<nat>)
    ensures r.Some? ==> r.value < |links| && links[r.value].rel == "approval_url"
    ensures r.Some? ==> forall j :: 0 <= j < r.value ==> links[j].rel != "approval_url"
    ensures r.None? ==> forall j :: 0 <= j < |links| ==> links[j].rel != "approval_url"
  {
    if |links| == 0 then None
    else if links[0].rel == "approval_url" then Some(0)
    else match FirstApproval(links[1..])
      case None => None
      case Some(k) => Some(k + 1)
  }

  /** Replies of `createPaypalOrder`. */
  datatype OrderReply =
    | OrderNotFound                 // 404
    | FreeCourse                    // 400: "no payment needed"
    | OrderAlreadyEnrolled          // 400
    | OrderServerError              // 500: formatting an absent price throws
    | GatewayCreateError(response: string)  // 500: the gateway's error payload
    | ApprovalUrl(href: string)     // 200
    | NoReply                       // no approval link: the handler never answers

  /** The outcome of `createPaypalOrder`: its reply and the request it sent to
      the gateway, if it got that far. */
  datatype OrderOutcome = OrderOutcome(reply: OrderReply, sent: Option<OrderRequest>)

  /** `createPaypalOrder`. Guards: missing course (404), then `price <= 0`
      (400), then already enrolled (400). An absent price passes the price
      guard (`undefined <= 0` is false) and then makes `toFixed` throw (500).
      A present positive price builds and sends the request; the gateway's
      answer decides the reply. The store is never written. */
  function CreatePaypalOrder(db: Db, courseId: Id, studentId: Id, clientUrl: string, gateway: CreateReply): (r: OrderOutcome)
    ensures courseId !in db.courses ==> r == OrderOutcome(OrderNotFound, None)
    ensures (courseId in db.courses && db.courses[courseId].price.Some?
             && db.courses[courseId].price.value <= 0)
              ==> r == OrderOutcome(FreeCourse, None)
    ensures r.reply == OrderAlreadyEnrolled ==> studentId in db.courses[courseId].enrolledStudents
    ensures r.sent.Some? <==>
              && courseId in db.courses
              && db.courses[courseId].price.Some? && db.courses[courseId].price.value > 0
              && studentId !in db.courses[courseId].enrolledStudents
    ensures r.sent.Some? ==>
              && |r.sent.value.items| == 1
              && r.sent.value.items[0].quantity == 1
              && r.sent.value.items[0].currency == "USD"
              && r.sent.value.items[0].priceCents == r.sent.value.totalCents
              && r.sent.value.totalCents == db.courses[courseId].price.value
    ensures r.reply.ApprovalUrl? ==>
              gateway.PaymentCreated? && r.sent.Some?
              && exists i :: 0 <= i < |gateway.links| && gateway.links[i].rel == "approval_url"
                   && gateway.links[i].href == r.reply.href
                   && forall j :: 0 <= j < i ==> gateway.links[j].rel != "approval_url"
    ensures r.reply.NoReply? ==>
              gateway.PaymentCreated? && forall j :: 0 <= j < |gateway.links| ==> gateway.links[j].rel != "approval_url"
    ensures r.sent.Some? && gateway.CreateFailed? ==> r.reply == GatewayCreateError(gateway.response)
    ensures (&& courseId in db.courses
             && !(db.courses[courseId].price.Some? && db.courses[courseId].price.value <= 0)
             && studentId in db.courses[courseId].enrolledStudents)
              ==> r == OrderOutcome(OrderAlreadyEnrolled, None)
    ensures (&& courseId in db.courses && db.courses[courseId].price.None?
             && studentId !in db.courses[courseId].enrolledStudents)
              ==> r == OrderOutcome(OrderServerError, None)
    ensures r.sent.Some? ==>
              r.sent.value == BuildOrderRequest(clientUrl, courseId, db.courses[courseId].title,
                                                db.courses[courseId].price.value)
    ensures r.sent.Some? && gateway.PaymentCreated? && FirstApproval(gateway.links).Some? ==>
              r.reply == ApprovalUrl(gateway.links[FirstApproval(gateway.links).value].href)
    ensures r.sent.Some? && gateway.PaymentCreated? && FirstApproval(gateway.links).None? ==>
              r.reply == NoReply
  {
    if courseId !in db.courses then OrderOutcome(OrderNotFound, None)
    else
      var course := db.courses[courseId];
      if course.price.Some? && course.price.value <= 0 then OrderOutcome(FreeCourse, None)
      else if studentId in course.enrolledStudents then OrderOutcome(OrderAlreadyEnrolled, None)
      else if course.price.None? then OrderOutcome(OrderServerError, None)
      else
        var request := BuildOrderRequest(clientUrl, courseId, course.title, course.price.value);
        match gateway
        case CreateFailed(response) => OrderOutcome(GatewayCreateError(response), Some(request))
        case PaymentCreated(links) =>
          match FirstApproval(links)
          case None => OrderOutcome(NoReply, Some(request))
          case Some(i) => OrderOutcome(ApprovalUrl(links[i].href), Some(request))
  }

  /** On any course the schema accepted, no order request ever reaches the
      gateway: the absent price makes the handler fail first. */
  lemma NoOrderOnSchemaCourses(db: Db, courseId: Id, studentId: Id, clientUrl: string, gateway: CreateReply)
    requires courseId in db.courses && CourseConforms(db.courses[courseId])
    requires studentId !in db.courses[courseId].enrolledStudents
    ensures CreatePaypalOrder(db, courseId, studentId, clientUrl, gateway) == OrderOutcome(OrderServerError, None)
  {
  }

  /** What the gateway answers to an execute-payment request. */
  datatype ExecuteReply = Executed(state: string) | ExecuteFailed(response: string)

  /** Replies of `capturePaypalOrder`. */
  datatype CaptureReply =
    | MissingPaymentIds                    // 400
    | CaptureNotFound                      // 404
    | CaptureAlreadyEnrolled               // 400
    | GatewayExecuteError(response: string)  // 500
    | PaymentCaptured(course: Course)      // 200
    | PaymentNotApproved(state: string)    // 400

  /** The replies that come from the gateway's answer, i.e. those produced after
      the execute call was made. */
  predicate CalledGateway(r: CaptureReply)
  {
    r.GatewayExecuteError? || r.PaymentCaptured? || r.PaymentNotApproved?
  }

  /** `capturePaypalOrder`. Guards: both payment handles present (400), course
      and student present (404), student not yet enrolled (400); then the
      gateway executes the payment and only the state `approved` performs the
      dual write. */
  function CapturePaypalOrder(db: Db, courseId: Id, studentId: Id,
                              paymentId: Option<string>, payerId: Option<string>,
                              gateway: ExecuteReply): (r: Step<CaptureReply>)
    ensures !Present(paymentId) || !Present(payerId) ==> r == Step(MissingPaymentIds, db)
    ensures CalledGateway(r.reply) <==>
              && Present(paymentId) && Present(payerId)
              && courseId in db.courses && studentId in db.users
              && studentId !in db.courses[courseId].enrolledStudents
    ensures r.reply.PaymentCaptured? <==> CalledGateway(r.reply) && gateway == Executed("approved")
    ensures !r.reply.PaymentCaptured? ==> r.db == db
    ensures r.reply.PaymentCaptured? ==>
              && courseId in db.courses && studentId in db.users
              && r.db == DualWrite(db, courseId, studentId)
              && studentId in r.db.courses[courseId].enrolledStudents
              && courseId in r.db.users[studentId].enrolledCourses
              && r.reply.course == r.db.courses[courseId]
    ensures (&& Present(paymentId) && Present(payerId)
             && (courseId !in db.courses || studentId !in db.users))
              ==> r == Step(CaptureNotFound, db)
    ensures (&& Present(paymentId) && Present(payerId)
             && courseId in db.courses && studentId in db.users
             && studentId in db.courses[courseId].enrolledStudents)
              ==> r == Step(CaptureAlreadyEnrolled, db)
    ensures CalledGateway(r.reply) && gateway.ExecuteFailed? ==>
              r == Step(GatewayExecuteError(gateway.response), db)
    ensures CalledGateway(r.reply) && gateway.Executed? && gateway.state != "approved" ==>
              r == Step(PaymentNotApproved(gateway.state), db)
  {
    if !Present(paymentId) || !Present(payerId) then Step(MissingPaymentIds, db)
    else if courseId !in db.courses || studentId !in db.users then Step(CaptureNotFound, db)
    else if studentId in db.courses[courseId].enrolledStudents then Step(CaptureAlreadyEnrolled, db)
    else match gateway
      case ExecuteFailed(response) => Step(GatewayExecuteError(response), db)
      case Executed(state) =>
        if state == "approved" then
          var d := DualWrite(db, courseId, studentId);
          Step(PaymentCaptured(d.courses[courseId]), d)
        else Step(PaymentNotApproved(state), db)
  }

  lemma CapturePreserves(db: Db, courseId: Id, studentId: Id,
                         paymentId: Option<string>, payerId: Option<string>, gateway: ExecuteReply)
    requires Consistent(db)
    ensures Consistent(CapturePaypalOrder(db, courseId, studentId, paymentId, payerId, gateway).db)
  {
    if CapturePaypalOrder(db, courseId, studentId, paymentId, payerId, gateway).reply.PaymentCaptured? {
      DualWritePreserves(db, courseId, studentId);
    }
  }

  /** Once a capture has enrolled the student, asking for another order on the
      same course sends nothing to the gateway: the order and the capture agree
      on who has paid. */
  lemma NoOrderAfterCapture(db: Db, courseId: Id, studentId: Id,
                            paymentId: Option<string>, payerId: Option<string>, gateway: ExecuteReply,
                            clientUrl: string, created: CreateReply)
    requires CapturePaypalOrder(db, courseId, studentId, paymentId, payerId, gateway).reply.PaymentCaptured?
    ensures var d := CapturePaypalOrder(db, courseId, studentId, paymentId, payerId, gateway).db;
      var o := CreatePaypalOrder(d, courseId, studentId, clientUrl, created);
      && o.sent.None?
      && (o.reply == OrderAlreadyEnrolled || o.reply == FreeCourse)
  {
  }

  /** A second capture for the same student and course, whatever the gateway
      would say, is refused and changes nothing: capture never enrolls twice. */
  lemma CaptureNeverTwice(db: Db, courseId: Id, studentId: Id,
                          paymentId: Option<string>, payerId: Option<string>, gateway: ExecuteReply,
                          paymentId2: Option<string>, payerId2: Option<string>, gateway2: ExecuteReply)
    requires CapturePaypalOrder(db, courseId, studentId, paymentId, payerId, gateway).reply.PaymentCaptured?
    ensures var d := CapturePaypalOrder(db, courseId, studentId, paymentId, payerId, gateway).db;
      var r2 := CapturePaypalOrder(d, courseId, studentId, paymentId2, payerId2, gateway2);
      && !r2.reply.PaymentCaptured?
      && r2.db == d
  {
  }
}

=== FILE: models.dfy ===
/** The persisted documents (Course with its content items, Rating, User), the
    constraints the Course and Rating schemas enforce when a new document is
    saved, and the abstract store every handler reads and writes. */
module Models {
  import opened Common

  /** The enum of a content item's `type` field. */
  datatype ContentKind = Video | Pdf | Quiz | Resource

  /** The string stored for each kind. */
  function KindName(k: ContentKind): string
  {
    match k
    case Video => "video"
    case Pdf => "pdf"
    case Quiz => "quiz"
    case Resource => "resource"
  }

  /** Enum validation: the kind a stored string names, if it names one. */
  function ParseKind(s: string): (k: Option<ContentKind>)
    ensures k.None? ==> forall x :: KindName(x) != s
    ensures k.Some? ==> KindName(k.value) == s
  {
    if s == "video" then Some(Video)
    else if s == "pdf" then Some(Pdf)
    else if s == "quiz" then Some(Quiz)
    else if s == "resource" then Some(Resource)
    else None
  }

  /** One element of a course's `content` array. Every field is optional in the
      schema; `kind` is the field the schema calls `type`. */
  datatype ContentItem = ContentItem(
    title: Option<string>,
    kind: Option<string>,
    url: Option<string>,
    text: Option<string>)

  /** The enum constraint on a content item: its type, when present, is one of
      video, pdf, quiz or resource. */
  predicate ValidContentItem(item: ContentItem)
  {
    item.kind.None? || ParseKind(item.kind.value).Some?
  }

  /** A stored course. `pricing` is the schema's price field, in cents.
      `price` is what a controller gets when it reads `course.price`: the schema
      declares no such path, so on every stored document it is absent
      (`CourseConforms` says so); it is kept as a field so the enrollment
      decisions can be stated for any value it might take. */
  datatype Course = Course(
    title: string,
    description: string,
    category: string,
    tags: seq<string>,
    pricing: int,
    instructor: Id,
    content: seq<ContentItem>,
    ratings: seq<Id>,
    averageRating: real,
    enrolledStudents: seq<Id>,
    price: Option<int>)

  predicate AllTrimmed(ss: seq<string>)
  {
    forall i :: 0 <= i < |ss| ==> IsTrimmed(ss[i])
  }

  /** What the Course schema guarantees of a document it accepted: required
      title, description and category (title and category trimmed), trimmed
      tags, a non-negative pricing, content types from the enum, and no value
      at the undeclared `price` path. The required instructor reference is
      present by typing. */
  predicate CourseConforms(c: Course)
  {
    && c.title != "" && IsTrimmed(c.title)
    && c.description != ""
    && c.category != "" && IsTrimmed(c.category)
    && AllTrimmed(c.tags)
    && c.pricing >= 0
    && (forall i :: 0 <= i < |c.content| ==> ValidContentItem(c.content[i]))
    && c.price.None?
  }

  /** The fields `createCourse` hands to the Course constructor. */
  datatype CourseDraft = CourseDraft(
    title: Option<string>,
    description: Option<string>,
    category: Option<string>,
    tags: seq<string>,
    pricing: Option<int>)

  /** The `trim` setter applied to every tag. */
  function TrimAll(tags: seq<string>): (r: seq<string>)
    ensures |r| == |tags|
    ensures forall i :: 0 <= i < |r| ==> r[i] == Trim(tags[i])
    ensures AllTrimmed(r)
  {
    seq(|tags|, i requires 0 <= i < |tags| => Trim(tags[i]))
  }

  /** Casting then validating a new course document: the setters trim title,
      category and tags; a missing or blank required field, a negative pricing
      or a content type outside the enum makes the save fail (`None`). The
      defaults are an average rating of 0 and empty rating and student lists. */
  function BuildCourse(draft: CourseDraft, instructor: Id, content: seq<ContentItem>): (r: Option<Course>)
    ensures r.Some? <==>
      && draft.title.Some? && Trim(draft.title.value) != ""
      && draft.description.Some? && draft.description.value != ""
      && draft.category.Some? && Trim(draft.category.value) != ""
      && draft.pricing.Some? && draft.pricing.value >= 0
      && (forall i :: 0 <= i < |content| ==> ValidContentItem(content[i]))
    ensures r.Some? ==>
      && CourseConforms(r.value)
      && r.value.title == Trim(draft.title.value)
      && r.value.description == draft.description.value
      && r.value.category == Trim(draft.category.value)
      && r.value.tags == TrimAll(draft.tags)
      && r.value.pricing == draft.pricing.value
      && r.value.instructor == instructor
      && r.value.content == content
      && r.value.averageRating == 0.0
      && r.value.ratings == [] && r.value.enrolledStudents == []
  {
    if && draft.title.Some? && Trim(draft.title.value) != ""
       && draft.description.Some? && draft.description.value != ""
       && draft.category.Some? && Trim(draft.category.value) != ""
       && draft.pricing.Some? && draft.pricing.value >= 0
       && (forall i :: 0 <= i < |content| ==> ValidContentItem(content[i]))
    then
      Some(Course(
        Trim(draft.title.value), draft.description.value, Trim(draft.category.value),
        TrimAll(draft.tags), draft.pricing.value, instructor, content,
        [], 0.0, [], None))
    else None
  }

  /** A stored rating: an integer value with an optional comment, by one user on
      one course. Both references are required and present by typing. */
  datatype Rating = Rating(value: int, comment: Option<string>, user: Id, course: Id)

  /** What the Rating schema guarantees of a document it accepted. */
  predicate RatingConforms(r: Rating)
  {
    1 <= r.value <= 5 && (r.comment.None? || IsTrimmed(r.comment.value))
  }

  /** Casting then validating a new rating: the comment is trimmed; a missing
      value or one outside [1, 5] makes the save fail (`None`). */
  function BuildRating(value: Option<int>, comment: Option<string>, user: Id, course: Id): (r: Option<Rating>)
    ensures r.Some? <==> value.Some? && 1 <= value.value <= 5
    ensures r.Some? ==>
      && RatingConforms(r.value)
      && r.value.value == value.value
      && r.value.user == user && r.value.course == course
      && (comment.None? ==> r.value.comment.None?)
      && (comment.Some? ==> r.value.comment == Some(Trim(comment.value)))
  {
    if value.Some? && 1 <= value.value <= 5 then
      Some(Rating(value.value, if comment.Some? then Some(Trim(comment.value)) else None, user, course))
    else None
  }

  /** A stored user. `role` is kept as the stored string. */
  datatype User = User(
    name: string,
    email: string,
    password: Option<string>,
    role: string,
    googleId: Option<string>,
    enrolledCourses: seq<Id>,
    createdCourses: seq<Id>)

  /** The three collections, keyed by document id. */
  datatype Db = Db(courses: map<Id, Course>, users: map<Id, User>, ratings: map<Id, Rating>)

  /** A handler's reply together with the store it leaves behind. */
  datatype Step<R> = Step(reply: R, db: Db)
}

=== FILE: passport.dfy ===
/** The Google OAuth verify callback and the session (de)serialisers. The users
    collection is read here in its natural order, so `findOne` is "the first
    matching document". */
module GoogleAuth {
  import opened Common
  import opened Models

  /** A stored user document with its id. */
  datatype UserDoc = UserDoc(id: Id, user: User)

  /** The single-field filters the strategy queries by. */
  datatype Key = ByGoogleId(googleId: string) | ByEmail(email: string) | ById(id: Id)

  predicate Matches(d: UserDoc, k: Key)
  {
    match k
    case ByGoogleId(g) => d.user.googleId == Some(g)
    case ByEmail(e) => d.user.email == e
    case ById(id) => d.id == id
  }

  /** `findOne`: the position of the first document matching `k`. */
  function FindFirst(users: seq<UserDoc>, k: Key): (r: Option<nat>)
    ensures r.Some? ==> r.value < |users| && Matches(users[r.value], k)
    ensures r.Some? ==> forall j :: 0 <= j < r.value ==> !Matches(users[j], k)
    ensures r.None? <==> forall j :: 0 <= j < |users| ==> !Matches(users[j], k)
    decreases |users|
  {
    if |users| == 0 then None
    else if Matches(users[0], k) then Some(0)
    else
      var rest := FindFirst(users[1..], k);
      if rest.None? then None else Some(rest.value + 1)
  }

  predicate UniqueIds(users: seq<UserDoc>)
  {
    forall i, j :: 0 <= i < j < |users| ==> users[i].id != users[j].id
  }

  /** The part of the Google profile the callback reads. */
  datatype Profile = Profile(id: string, displayName: string, emails: seq<string>)

  /** What the callback hands to `done`. */
  datatype Verdict = Authenticated(doc: UserDoc) | AuthError

  datatype AuthStep = AuthStep(verdict: Verdict, users: seq<UserDoc>)

  /** The document created for a first-time Google user. */
  function NewGoogleUser(profile: Profile): (u: User)
    requires |profile.emails| > 0
    ensures u.role == "student" && u.name == profile.displayName && u.email == profile.emails[0]
    ensures u.googleId == Some(profile.id) && u.password.None?
    ensures u.enrolledCourses == [] && u.createdCourses == []
  {
    User(profile.displayName, profile.emails[0], None, "student", Some(profile.id), [], [])
  }

  /** The verify callback. A user already carrying the profile's Google id is
      returned as is. Otherwise the first e-mail is read (an empty list throws);
      a user with that e-mail gets the Google id written onto it, whatever
      Google id it held before; failing that a new student is created.
      `saveOk` is the outcome of the store write, whose validation lives in the
      User schema; a failed write, or a new id already taken, ends in an error. */
  function GoogleVerify(users: seq<UserDoc>, profile: Profile, newId: Id, saveOk: bool): (r: AuthStep)
    ensures FindFirst(users, ByGoogleId(profile.id)).Some? ==>
              r == AuthStep(Authenticated(users[FindFirst(users, ByGoogleId(profile.id)).value]), users)
    ensures FindFirst(users, ByGoogleId(profile.id)).None? && |profile.emails| == 0 ==>
              r == AuthStep(AuthError, users)
    ensures r.verdict.AuthError? ==> r.users == users
    ensures r.verdict.Authenticated? ==> r.verdict.doc.user.googleId == Some(profile.id)
    ensures r.verdict.Authenticated? ==> r.verdict.doc in r.users
    ensures |users| <= |r.users| <= |users| + 1
    ensures forall j :: 0 <= j < |users| ==> r.users[j].id == users[j].id
    ensures forall j :: 0 <= j < |users| && !Matches(users[j], ByGoogleId(profile.id)) && r.users[j] != users[j] ==>
              && |profile.emails| > 0
              && users[j].user.email == profile.emails[0]
              && r.users[j] == UserDoc(users[j].id, users[j].user.(googleId := Some(profile.id)))
    ensures FindFirst(users, ByGoogleId(profile.id)).None? && !saveOk ==> r == AuthStep(AuthError, users)
    ensures (&& FindFirst(users, ByGoogleId(profile.id)).None? && |profile.emails| > 0
             && FindFirst(users, ByEmail(profile.emails[0])).Some? && saveOk) ==>
              var i := FindFirst(users, ByEmail(profile.emails[0])).value;
              var linked := UserDoc(users[i].id, users[i].user.(googleId := Some(profile.id)));
              r == AuthStep(Authenticated(linked), users[i := linked])
    ensures (&& FindFirst(users, ByGoogleId(profile.id)).None? && |profile.emails| > 0
             && FindFirst(users, ByEmail(profile.emails[0])).None? && saveOk) ==>
              (if FindFirst(users, ById(newId)).None?
               then r == AuthStep(Authenticated(UserDoc(newId, NewGoogleUser(profile))),
                                  users + [UserDoc(newId, NewGoogleUser(profile))])
               else r == AuthStep(AuthError, users))
  {
    var byGoogle := FindFirst(users, ByGoogleId(profile.id));
    if byGoogle.Some? then AuthStep(Authenticated(users[byGoogle.value]), users)
    else if |profile.emails| == 0 then AuthStep(AuthError, users)
    else
      var byEmail := FindFirst(users, ByEmail(profile.emails[0]));
      if byEmail.Some? then
        var i := byEmail.value;
        var linked := UserDoc(users[i].id, users[i].user.(googleId := Some(profile.id)));
        assert users[i := linked][i] == linked;
        if saveOk then AuthStep(Authenticated(linked), users[i := linked])
        else AuthStep(AuthError, users)
      else if saveOk && FindFirst(users, ById(newId)).None? then
        var created := UserDoc(newId, NewGoogleUser(profile));
        AuthStep(Authenticated(created), users + [created])
      else AuthStep(AuthError, users)
  }

  /** A successful sign-in leaves the store in a state where signing in again
      with the same profile returns the same user and writes nothing. */
  lemma VerifyIdempotent(users: seq<UserDoc>, profile: Profile, newId: Id, saveOk: bool, newId2: Id, saveOk2: bool)
    requires GoogleVerify(users, profile, newId, saveOk).verdict.Authenticated?
    ensures var first := GoogleVerify(users, profile, newId, saveOk);
      GoogleVerify(first.users, profile, newId2, saveOk2) == first
  {
    var first := GoogleVerify(users, profile, newId, saveOk);
    var k := ByGoogleId(profile.id);
    if FindFirst(users, k).None? {
      var i := FindFirst(users, ByEmail(profile.emails[0]));
      if i.Some? {
        var f := FindFirst(first.users, k);
        assert Matches(first.users[i.value], k);
        assert f.Some? && f.value == i.value by {
          assert forall j :: 0 <= j < |first.users| && j != i.value ==> first.users[j] == users[j];
        }
      } else {
        var f := FindFirst(first.users, k);
        assert Matches(first.users[|users|], k);
        assert f.Some? && f.value == |users| by {
          assert forall j :: 0 <= j < |users| ==> first.users[j] == users[j];
        }
      }
    }
  }

  /** Linking by e-mail does not check whether the user was already linked to
      another Google account: such a user is re-linked to the new one. */
  lemma EmailMatchRelinks(other: string, profile: Profile, id: Id, u: User)
    requires other != profile.id
    requires |profile.emails| > 0 && u.email == profile.emails[0] && u.googleId == Some(other)
    ensures var r := GoogleVerify([UserDoc(id, u)], profile, id, true);
      r.verdict == Authenticated(UserDoc(id, u.(googleId := Some(profile.id))))
  {
    assert FindFirst([UserDoc(id, u)], ByGoogleId(profile.id)).None?;
  }

  /** `serializeUser`: the session keeps the user's id. */
  function Serialize(d: UserDoc): (id: Id)
    ensures Matches(d, ById(id))
  {
    d.id
  }

  /** `deserializeUser`: `findById` on the stored id; `None` when no document
      carries it. */
  function Deserialize(users: seq<UserDoc>, id: Id): (r: Option<User>)
    ensures r.None? <==> forall j :: 0 <= j < |users| ==> users[j].id != id
    ensures r.Some? ==> exists j :: 0 <= j < |users| && users[j] == UserDoc(id, r.value)
  {
    var i := FindFirst(users, ById(id));
    if i.Some? then
      assert users[i.value] == UserDoc(id, users[i.value].user);
      Some(users[i.value].user)
    else None
  }

  /** With ids unique, a stored user survives the session round trip. */
  lemma SessionRoundTrip(users: seq<UserDoc>, j: nat)
    requires UniqueIds(users) && j < |users|
    ensures Deserialize(users, Serialize(users[j])) == Some(users[j].user)
  {
    var i := FindFirst(users, ById(users[j].id));
    assert i.Some?;
    assert i.value == j;
  }

  /** A sign-in keeps the ids unique. */
  lemma VerifyKeepsIdsUnique(users: seq<UserDoc>, profile: Profile, newId: Id, saveOk: bool)
    requires UniqueIds(users)
    ensures UniqueIds(GoogleVerify(users, profile, newId, saveOk).users)
  {
    var r := GoogleVerify(users, profile, newId, saveOk);
    if |r.users| > |users| {
      assert r.users == users + [r.users[|users|]];
      assert r.users[|users|].id == newId;
    }
  }
}

=== FILE: ratings.dfy ===
/** The rating controller: `addRating` (duplicate guard, save, append to the
    course's list, recompute the average) and `getCourseRatings`. Rating values
    are integers and the average is an exact `real`. */
module Ratings {
  import opened Common
  import opened Models

  /** Sum of the values (the source's `reduce` with initial value 0). */
  function Sum(vs: seq<int>): int
  {
    if |vs| == 0 then 0 else vs[0] + Sum(vs[1..])
  }

  /** The stored average: sum divided by count, 0 when there is nothing to average. */
  function Mean(vs: seq<int>): real
  {
    if |vs| == 0 then 0.0 else Sum(vs) as real / |vs| as real
  }

  lemma {:induction false} SumAppend(a: seq<int>, b: seq<int>)
    ensures Sum(a + b) == Sum(a) + Sum(b)
  {
    if |a| == 0 {
      assert a + b == b;
    } else {
      assert (a + b)[1..] == a[1..] + b;
      SumAppend(a[1..], b);
    }
  }

  /** Values in [lo, hi] sum to between lo and hi times their count. */
  lemma {:induction false} SumBounds(vs: seq<int>, lo: int, hi: int)
    requires forall i :: 0 <= i < |vs| ==> lo <= vs[i] <= hi
    ensures lo * |vs| <= Sum(vs) <= hi * |vs|
  {
    if |vs| > 0 {
      SumBounds(vs[1..], lo, hi);
    }
  }

  /** The average of ratings in [1, 5] lies in [1, 5]. */
  lemma MeanBounds(vs: seq<int>)
    requires |vs| > 0
    requires forall i :: 0 <= i < |vs| ==> 1 <= vs[i] <= 5
    ensures 1.0 <= Mean(vs) <= 5.0
  {
    SumBounds(vs, 1, 5);
    DivBounds(Sum(vs) as real, |vs| as real, 1.0, 5.0);
  }

  /** A quotient by a positive divisor inherits bounds on the dividend. */
  lemma DivBounds(s: real, n: real, lo: real, hi: real)
    requires n > 0.0 && lo * n <= s <= hi * n
    ensures lo <= s / n <= hi
  {
    if s / n < lo {
      ScaleBelow(s / n, lo, n);
      assert false;
    }
    if s / n > hi {
      ScaleBelow(hi, s / n, n);
      assert false;
    }
  }

  /** Multiplying by a positive factor keeps a strict order. */
  lemma ScaleBelow(x: real, y: real, n: real)
    requires x < y && n > 0.0
    ensures x * n < y * n
  {
    PositiveProduct(y - x, n);
    assert (y - x) * n == y * n - x * n;
  }

  lemma PositiveProduct(x: real, y: real)
    requires x > 0.0 && y > 0.0
    ensures x * y > 0.0
  {
  }

  /** Removing the element at `k` takes exactly that element off the sum. */
  lemma SumRemoveAt(b: seq<int>, k: nat)
    requires k < |b|
    ensures Sum(b) == b[k] + Sum(b[..k] + b[k + 1..])
  {
    assert b == b[..k] + b[k..];
    SumAppend(b[..k], b[k..]);
    assert b[k..][1..] == b[k + 1..];
    SumAppend(b[..k], b[k + 1..]);
  }

  lemma MultisetRemoveAt(b: seq<int>, k: nat)
    requires k < |b|
    ensures multiset(b[..k] + b[k + 1..]) == multiset(b) - multiset{b[k]}
  {
    assert b == b[..k] + [b[k]] + b[k + 1..];
  }

  /** Reordering the ratings does not change their sum. */
  lemma {:induction false} SumPermutation(a: seq<int>, b: seq<int>)
    requires multiset(a) == multiset(b)
    ensures Sum(a) == Sum(b)
    decreases |a|
  {
    if |a| == 0 {
      assert |b| == |multiset(b)| == 0;
    } else {
      assert a[0] in multiset(b);
      var k :| 0 <= k < |b| && b[k] == a[0];
      var rest := b[..k] + b[k + 1..];
      MultisetRemoveAt(b, k);
      assert a == [a[0]] + a[1..];
      assert multiset(a[1..]) == multiset(a) - multiset{a[0]};
      SumPermutation(a[1..], rest);
      SumRemoveAt(b, k);
    }
  }

  /** The average does not depend on the order the ratings arrived in. */
  lemma MeanOrderIndependent(a: seq<int>, b: seq<int>)
    requires multiset(a) == multiset(b)
    ensures Mean(a) == Mean(b)
  {
    assert |a| == |multiset(a)| == |multiset(b)| == |b|;
    SumPermutation(a, b);
  }

  /** Three ratings 5, 3 and 4 average to exactly 4. */
  lemma MeanExample()
    ensures Mean([5, 3, 4]) == 4.0
  {
    assert Sum([5, 3, 4]) == 12 by {
      assert [5, 3, 4][1..] == [3, 4];
      assert [3, 4][1..] == [4];
    }
  }

  /** The values of the referenced ratings, in list order; as `populate` does,
      references to ratings that are not stored are dropped. */
  function RatingValues(ratings: map<Id, Rating>, ids: seq<Id>): (vs: seq<int>)
    ensures |vs| <= |ids|
  {
    if |ids| == 0 then []
    else (if ids[0] in ratings then [ratings[ids[0]].value] else []) + RatingValues(ratings, ids[1..])
  }

  lemma {:induction false} RatingValuesAppend(ratings: map<Id, Rating>, ids: seq<Id>, id: Id)
    requires id in ratings
    ensures RatingValues(ratings, ids + [id]) == RatingValues(ratings, ids) + [ratings[id].value]
  {
    if |ids| == 0 {
      assert ids + [id] == [id];
      assert RatingValues(ratings, [id]) == [ratings[id].value] + RatingValues(ratings, []);
    } else {
      var head := if ids[0] in ratings then [ratings[ids[0]].value] else [];
      assert (ids + [id])[0] == ids[0];
      assert (ids + [id])[1..] == ids[1..] + [id];
      RatingValuesAppend(ratings, ids[1..], id);
      calc {
        RatingValues(ratings, ids + [id]);
        head + RatingValues(ratings, ids[1..] + [id]);
        head + (RatingValues(ratings, ids[1..]) + [ratings[id].value]);
        (head + RatingValues(ratings, ids[1..])) + [ratings[id].value];
        RatingValues(ratings, ids) + [ratings[id].value];
      }
    }
  }

  /** Storing a rating under an id the list does not mention leaves the list's values alone. */
  lemma {:induction false} RatingValuesFrame(ratings: map<Id, Rating>, ids: seq<Id>, id: Id, rt: Rating)
    requires id !in ids
    ensures RatingValues(ratings[id := rt], ids) == RatingValues(ratings, ids)
  {
    if |ids| > 0 {
      assert id !in ids[1..];
      RatingValuesFrame(ratings, ids[1..], id, rt);
    }
  }

  /** Every value the list refers to satisfies `lo <= v <= hi` when every stored rating does. */
  lemma {:induction false} RatingValuesInRange(ratings: map<Id, Rating>, ids: seq<Id>)
    requires forall id :: id in ratings ==> RatingConforms(ratings[id])
    ensures forall i :: 0 <= i < |RatingValues(ratings, ids)| ==> 1 <= RatingValues(ratings, ids)[i] <= 5
  {
    if |ids| > 0 {
      RatingValuesInRange(ratings, ids[1..]);
    }
  }

  /** Some stored rating is by `user` on `course`. */
  predicate HasRated(ratings: map<Id, Rating>, user: Id, course: Id)
  {
    exists id :: id in ratings && ratings[id].user == user && ratings[id].course == course
  }

  /** At most one stored rating per (user, course) pair. */
  ghost predicate UniquePairs(ratings: map<Id, Rating>)
  {
    forall a, b :: a in ratings && b in ratings && a != b ==>
      (ratings[a].user, ratings[a].course) != (ratings[b].user, ratings[b].course)
  }

  /** Every course lists only stored ratings. */
  ghost predicate RefsClosed(db: Db)
  {
    forall c, i :: c in db.courses && 0 <= i < |db.courses[c].ratings| ==> db.courses[c].ratings[i] in db.ratings
  }

  /** The rating side of the store is consistent: stored ratings conform to the
      schema, at most one per (user, course), every course lists only stored
      ratings, and every course's average is the mean of the values it lists. */
  ghost predicate Consistent(db: Db)
  {
    && (forall id :: id in db.ratings ==> RatingConforms(db.ratings[id]))
    && UniquePairs(db.ratings)
    && RefsClosed(db)
    && (forall c :: c in db.courses ==>
          db.courses[c].averageRating == Mean(RatingValues(db.ratings, db.courses[c].ratings)))
  }

  /** Replies of `addRating`. */
  datatype RatingReply =
    | AlreadyRated                   // 400
    | RatingCreated(rating: Rating)  // 201
    | RatingError                    // 500: failed validation or save, or a missing course

  /** `addRating`. The duplicate check runs first and writes nothing. The rating
      is then validated and saved; a failed validation (value missing or outside
      [1, 5]) or an id clash fails the save and nothing is written. The course
      is fetched only after the save, so a missing course leaves the new rating
      stored and the reply is 500. Otherwise the rating id is appended to the
      course's list and the average recomputed over the list.
      In the source the list is populated (`populate('ratings')`) and the new
      id is pushed unpopulated; this model takes the pushed element to carry
      the new rating's value, as the recomputation intends. */
  function AddRating(db: Db, courseId: Id, userId: Id, value: Option<int>, comment: Option<string>, newId: Id): (r: Step<RatingReply>)
    ensures HasRated(db.ratings, userId, courseId) ==> r == Step(AlreadyRated, db)
    ensures r.reply.RatingCreated? <==>
              && !HasRated(db.ratings, userId, courseId)
              && value.Some? && 1 <= value.value <= 5
              && newId !in db.ratings
              && courseId in db.courses
    ensures r.db.users == db.users && r.db.courses.Keys == db.courses.Keys
    ensures !r.reply.RatingCreated? ==> r.db.courses == db.courses
    ensures r.db.ratings == db.ratings
              || (newId !in db.ratings && r.db.ratings.Keys == db.ratings.Keys + {newId}
                  && forall id :: id in db.ratings ==> r.db.ratings[id] == db.ratings[id])
    ensures (&& !HasRated(db.ratings, userId, courseId)
             && value.Some? && 1 <= value.value <= 5
             && newId !in db.ratings && courseId !in db.courses)
              ==> r.reply == RatingError && newId in r.db.ratings
    ensures (&& !HasRated(db.ratings, userId, courseId)
             && (BuildRating(value, comment, userId, courseId).None? || newId in db.ratings))
              ==> r == Step(RatingError, db)
    ensures (&& !HasRated(db.ratings, userId, courseId)
             && BuildRating(value, comment, userId, courseId).Some? && newId !in db.ratings)
              ==> newId in r.db.ratings && r.db.ratings[newId] == BuildRating(value, comment, userId, courseId).value
    ensures r.reply.RatingCreated? ==> r.reply.rating == BuildRating(value, comment, userId, courseId).value
    ensures r.reply.RatingCreated? ==>
              && newId in r.db.ratings && r.db.ratings[newId] == r.reply.rating
              && r.reply.rating.user == userId && r.reply.rating.course == courseId
              && r.reply.rating.value == value.value
              && r.db.courses[courseId].ratings == db.courses[courseId].ratings + [newId]
              && r.db.courses[courseId].enrolledStudents == db.courses[courseId].enrolledStudents
              && r.db.courses[courseId] == db.courses[courseId].(ratings := db.courses[courseId].ratings + [newId],
                                                                 averageRating := r.db.courses[courseId].averageRating)
              && (forall c :: c in db.courses && c != courseId ==> r.db.courses[c] == db.courses[c])
  {
    if HasRated(db.ratings, userId, courseId) then Step(AlreadyRated, db)
    else match BuildRating(value, comment, userId, courseId)
      case None => Step(RatingError, db)
      case Some(rt) =>
        if newId in db.ratings then Step(RatingError, db)
        else
          var ratings := db.ratings[newId := rt];
          if courseId !in db.courses then Step(RatingError, db.(ratings := ratings))
          else
            var course := db.courses[courseId];
            var values := RatingValues(db.ratings, course.ratings) + [rt.value];
            var updated := course.(ratings := course.ratings + [newId], averageRating := Mean(values));
            Step(RatingCreated(rt), db.(ratings := ratings, courses := db.courses[courseId := updated]))
  }

  /** After a successful rating the course's average is the mean of the values
      of every rating it lists, the new one included. */
  lemma AddRatingAverage(db: Db, courseId: Id, userId: Id, value: Option<int>, comment: Option<string>, newId: Id)
    requires RefsClosed(db)
    requires AddRating(db, courseId, userId, value, comment, newId).reply.RatingCreated?
    ensures var d := AddRating(db, courseId, userId, value, comment, newId).db;
      d.courses[courseId].averageRating == Mean(RatingValues(d.ratings, d.courses[courseId].ratings))
  {
    var r := AddRating(db, courseId, userId, value, comment, newId);
    var rt := r.reply.rating;
    var old_ids := db.courses[courseId].ratings;
    assert newId !in old_ids by {
      forall i | 0 <= i < |old_ids|
        ensures old_ids[i] != newId
      {
        assert old_ids[i] in db.ratings;
      }
    }
    RatingValuesAppend(r.db.ratings, old_ids, newId);
    RatingValuesFrame(db.ratings, old_ids, newId, rt);
  }

  lemma AddRatingPreserves(db: Db, courseId: Id, userId: Id, value: Option<int>, comment: Option<string>, newId: Id)
    requires Consistent(db)
    ensures Consistent(AddRating(db, courseId, userId, value, comment, newId).db)
  {
    var r := AddRating(db, courseId, userId, value, comment, newId);
    if r.db != db {
      var rt := BuildRating(value, comment, userId, courseId).value;
      assert newId !in db.ratings && r.db.ratings == db.ratings[newId := rt];
      assert UniquePairs(r.db.ratings) by {
        forall a, b | a in r.db.ratings && b in r.db.ratings && a != b
          ensures (r.db.ratings[a].user, r.db.ratings[a].course) != (r.db.ratings[b].user, r.db.ratings[b].course)
        {
          if a == newId || b == newId {
            var other := if a == newId then b else a;
            assert other in db.ratings;
            assert !(db.ratings[other].user == userId && db.ratings[other].course == courseId);
          }
        }
      }
      forall c | c in r.db.courses
        ensures r.db.courses[c].averageRating == Mean(RatingValues(r.db.ratings, r.db.courses[c].ratings))
      {
        var ids := db.courses[c].ratings;
        assert newId !in ids by {
          forall i | 0 <= i < |ids|
            ensures ids[i] != newId
          {
            assert ids[i] in db.ratings;
          }
        }
        if r.reply.RatingCreated? && c == courseId {
          AddRatingAverage(db, courseId, userId, value, comment, newId);
        } else {
          RatingValuesFrame(db.ratings, ids, newId, rt);
        }
      }
    }
  }

  /** On a consistent store every course's average is 0 (no ratings) or lies in [1, 5]. */
  lemma AverageInRange(db: Db, courseId: Id)
    requires Consistent(db) && courseId in db.courses
    ensures var a := db.courses[courseId].averageRating;
      a == 0.0 || 1.0 <= a <= 5.0
  {
    var vs := RatingValues(db.ratings, db.courses[courseId].ratings);
    RatingValuesInRange(db.ratings, db.courses[courseId].ratings);
    if |vs| > 0 {
      MeanBounds(vs);
    }
  }

  /** A second rating by the same user on the same course is refused and leaves
      the course's average unchanged. */
  lemma SecondRatingRefused(db: Db, courseId: Id, userId: Id, value: Option<int>, comment: Option<string>, newId: Id,
                            value2: Option<int>, comment2: Option<string>, newId2: Id)
    requires AddRating(db, courseId, userId, value, comment, newId).reply.RatingCreated?
    ensures var d := AddRating(db, courseId, userId, value, comment, newId).db;
      var r2 := AddRating(d, courseId, userId, value2, comment2, newId2);
      && r2.reply == AlreadyRated
      && r2.db == d
      && r2.db.courses[courseId].averageRating == d.courses[courseId].averageRating
  {
    var d := AddRating(db, courseId, userId, value, comment, newId).db;
    assert d.ratings[newId].user == userId && d.ratings[newId].course == courseId;
    assert HasRated(d.ratings, userId, courseId);
  }

  /** `getCourseRatings`: exactly the stored ratings whose course is `courseId`. */
  function GetCourseRatings(ratings: map<Id, Rating>, courseId: Id): (r: map<Id, Rating>)
    ensures forall id :: id in r <==> id in ratings && ratings[id].course == courseId
    ensures forall id :: id in r ==> r[id] == ratings[id]
  {
    map id | id in ratings && ratings[id].course == courseId :: ratings[id]
  }

  /** A successful rating adds exactly one entry, the new one, to the course's ratings listing. */
  lemma AddRatingListed(db: Db, courseId: Id, userId: Id, value: Option<int>, comment: Option<string>, newId: Id)
    requires AddRating(db, courseId, userId, value, comment, newId).reply.RatingCreated?
    ensures var d := AddRating(db, courseId, userId, value, comment, newId).db;
      && GetCourseRatings(d.ratings, courseId).Keys == GetCourseRatings(db.ratings, courseId).Keys + {newId}
      && newId !in GetCourseRatings(db.ratings, courseId)
  {
  }
}

=== FILE: runs.dfy ===
/** Sequential runs of the writing handlers over one store, and the store
    invariant every run keeps: duplicate-free, mirrored enrollment lists and
    consistent ratings. */
module BackendRuns {
  import opened Common
  import opened Models
  import Enrollment
  import Ratings
  import Courses
  import Admin

  /** One call of a handler that may write to the store. */
  datatype Request =
    | Enroll(courseId: Id, studentId: Id)
    | Capture(courseId: Id, studentId: Id, paymentId: Option<string>, payerId: Option<string>,
              gateway: Enrollment.ExecuteReply)
    | Rate(courseId: Id, userId: Id, value: Option<int>, comment: Option<string>, ratingId: Id)
    | Create(instructorId: Id, draft: CourseDraft, body: Option<Courses.BodyContent>,
             uploads: Option<Courses.Uploads>, newId: Id)
    | Update(courseId: Id, actor: Id, role: string, update: Courses.CourseUpdate)
    | Delete(courseId: Id, actor: Id, role: string)
    | ChangeRole(userId: Id, role: string)

  /** The store after one call. */
  function Apply(db: Db, q: Request): Db
  {
    match q
    case Enroll(c, s) => Enrollment.EnrollStudent(db, c, s).db
    case Capture(c, s, pid, payer, g) => Enrollment.CapturePaypalOrder(db, c, s, pid, payer, g).db
    case Rate(c, u, v, cm, id) => Ratings.AddRating(db, c, u, v, cm, id).db
    case Create(i, d, b, up, id) => Courses.CreateCourse(db, i, d, b, up, id).db
    case Update(c, a, r, u) => Courses.UpdateCourse(db, c, a, r, u).db
    case Delete(c, a, r) => Courses.DeleteCourse(db, c, a, r).db
    case ChangeRole(u, r) => Admin.UpdateUserRole(db, u, r).db
  }

  /** The store after the calls, in order. */
  function Run(db: Db, qs: seq<Request>): Db
    decreases |qs|
  {
    if |qs| == 0 then db else Run(Apply(db, qs[0]), qs[1..])
  }

  /** The course ids handed out so far, once more including `q`'s. */
  function Issued(used: set<Id>, q: Request): set<Id>
  {
    if q.Create? then used + {q.newId} else used
  }

  /** The ids of the courses a run creates. */
  function CreatedIds(qs: seq<Request>): set<Id>
    decreases |qs|
  {
    if |qs| == 0 then {} else (if qs[0].Create? then {qs[0].newId} else {}) + CreatedIds(qs[1..])
  }

  /** Every course a run creates gets an id never handed out before: document
      ids are not reused. */
  predicate FreshCreates(used: set<Id>, qs: seq<Request>)
    decreases |qs|
  {
    |qs| == 0 || ((qs[0].Create? ==> qs[0].newId !in used) && FreshCreates(Issued(used, qs[0]), qs[1..]))
  }

  /** Every course id in the store, and every course id a student lists, has
      been handed out. Deleted courses stay listed by their students. */
  ghost predicate Known(db: Db, used: set<Id>)
  {
    && db.courses.Keys <= used
    && forall u, i :: u in db.users && 0 <= i < |db.users[u].enrolledCourses| ==> db.users[u].enrolledCourses[i] in used
  }

  ghost predicate Invariant(db: Db, used: set<Id>)
  {
    Enrollment.Consistent(db) && Ratings.Consistent(db) && Known(db, used)
  }

  /** Users keep their enrollment lists. */
  ghost predicate SameEnrollments(db: Db, d: Db)
  {
    && d.users.Keys == db.users.Keys
    && forall u :: u in db.users ==> d.users[u].enrolledCourses == db.users[u].enrolledCourses
  }

  /** The enrollment dual write keeps the invariant: it adds a course id that
      is in the store. */
  lemma DualWriteKeeps(db: Db, used: set<Id>, c: Id, s: Id)
    requires Invariant(db, used) && c in db.courses && s in db.users
    requires s !in db.courses[c].enrolledStudents
    ensures Invariant(Enrollment.DualWrite(db, c, s), used)
  {
    Enrollment.DualWritePreserves(db, c, s);
    var d := Enrollment.DualWrite(db, c, s);
    assert forall k :: k in d.courses ==>
      (d.courses[k].ratings == db.courses[k].ratings && d.courses[k].averageRating == db.courses[k].averageRating);
    forall u, i | u in d.users && 0 <= i < |d.users[u].enrolledCourses|
      ensures d.users[u].enrolledCourses[i] in used
    {
      if u == s && i == |db.users[u].enrolledCourses| {
        assert d.users[u].enrolledCourses[i] == c;
      } else {
        assert d.users[u].enrolledCourses[i] == db.users[u].enrolledCourses[i];
      }
    }
  }

  /** A new course with no students and no ratings, under an id never handed
      out, keeps the invariant. */
  lemma PublishKeeps(db: Db, used: set<Id>, instructorId: Id, id: Id, course: Course)
    requires Invariant(db, used) && id !in used
    requires course.enrolledStudents == [] && course.ratings == [] && course.averageRating == 0.0
    ensures Invariant(Courses.Publish(db, instructorId, id, course), used + {id})
  {
    var d := Courses.Publish(db, instructorId, id, course);
    assert SameEnrollments(db, d);
    PublishKeepsMirror(db, used, instructorId, id, course);
    assert Ratings.RatingValues(d.ratings, []) == [];
  }

  lemma PublishKeepsMirror(db: Db, used: set<Id>, instructorId: Id, id: Id, course: Course)
    requires Invariant(db, used) && id !in used && course.enrolledStudents == []
    ensures Enrollment.Consistent(Courses.Publish(db, instructorId, id, course))
  {
    var d := Courses.Publish(db, instructorId, id, course);
    assert SameEnrollments(db, d);
    forall u | u in d.users
      ensures id !in d.users[u].enrolledCourses
    {
      var cs := db.users[u].enrolledCourses;
      forall i | 0 <= i < |cs|
        ensures cs[i] != id
      {
        assert cs[i] in used;
      }
    }
  }

  lemma CreateKeeps(db: Db, used: set<Id>, q: Request)
    requires q.Create? && q.newId !in used && Invariant(db, used)
    ensures Invariant(Apply(db, q), Issued(used, q))
  {
    var r := Courses.CreateCourse(db, q.instructorId, q.draft, q.body, q.uploads, q.newId);
    assert Apply(db, q) == r.db;
    if r.reply.CourseCreated? {
      var c := r.reply.course;
      assert c.enrolledStudents == [] && c.ratings == [] && c.averageRating == 0.0;
      PublishKeeps(db, used, q.instructorId, q.newId, c);
    } else {
      assert r.db == db;
      InvariantGrows(db, used, q.newId);
    }
  }

  /** Handing out one more id keeps the invariant of an unchanged store. */
  lemma InvariantGrows(db: Db, used: set<Id>, id: Id)
    requires Invariant(db, used)
    ensures Invariant(db, used + {id})
  {
  }

  lemma RateKeeps(db: Db, used: set<Id>, q: Request)
    requires q.Rate? && Invariant(db, used)
    ensures Invariant(Apply(db, q), Issued(used, q))
  {
    Ratings.AddRatingPreserves(db, q.courseId, q.userId, q.value, q.comment, q.ratingId);
    var d := Apply(db, q);
    assert forall k :: k in d.courses ==> d.courses[k].enrolledStudents == db.courses[k].enrolledStudents;
  }

  lemma UpdateKeeps(db: Db, used: set<Id>, q: Request)
    requires q.Update? && Invariant(db, used)
    ensures Invariant(Apply(db, q), Issued(used, q))
  {
    Courses.UpdatePreservesEnrollment(db, q.courseId, q.actor, q.role, q.update);
    var d := Apply(db, q);
    assert forall k :: k in d.courses ==>
      (d.courses[k].ratings == db.courses[k].ratings && d.courses[k].averageRating == db.courses[k].averageRating);
  }

  lemma DeleteKeeps(db: Db, used: set<Id>, q: Request)
    requires q.Delete? && Invariant(db, used)
    ensures Invariant(Apply(db, q), Issued(used, q))
  {
    Courses.DeletePreservesEnrollment(db, q.courseId, q.actor, q.role);
    var d := Apply(db, q);
    assert SameEnrollments(db, d);
  }

  lemma ChangeRoleKeeps(db: Db, used: set<Id>, q: Request)
    requires q.ChangeRole? && Invariant(db, used)
    ensures Invariant(Apply(db, q), Issued(used, q))
  {
    var d := Apply(db, q);
    assert SameEnrollments(db, d);
  }

  lemma EnrollKeeps(db: Db, used: set<Id>, q: Request)
    requires (q.Enroll? || q.Capture?) && Invariant(db, used)
    ensures Invariant(Apply(db, q), Issued(used, q))
  {
    if q.Enroll? && Enrollment.EnrollStudent(db, q.courseId, q.studentId).reply.Enrolled? {
      DualWriteKeeps(db, used, q.courseId, q.studentId);
    } else if q.Capture? && Enrollment.CapturePaypalOrder(db, q.courseId, q.studentId, q.paymentId, q.payerId, q.gateway).reply.PaymentCaptured? {
      DualWriteKeeps(db, used, q.courseId, q.studentId);
    }
  }

  /** One call keeps the invariant, provided a created course gets a new id. */
  lemma ApplyKeeps(db: Db, used: set<Id>, q: Request)
    requires Invariant(db, used)
    requires q.Create? ==> q.newId !in used
    ensures Invariant(Apply(db, q), Issued(used, q))
  {
    match q
    case Enroll(_, _) => EnrollKeeps(db, used, q);
    case Capture(_, _, _, _, _) => EnrollKeeps(db, used, q);
    case Rate(_, _, _, _, _) => RateKeeps(db, used, q);
    case Create(_, _, _, _, _) => CreateKeeps(db, used, q);
    case Update(_, _, _, _) => UpdateKeeps(db, used, q);
    case Delete(_, _, _) => DeleteKeeps(db, used, q);
    case ChangeRole(_, _) => ChangeRoleKeeps(db, used, q);
  }

  /** The store invariant holds after every sequential run. */
  lemma {:induction false} RunKeepsInvariant(db: Db, used: set<Id>, qs: seq<Request>)
    requires Invariant(db, used) && FreshCreates(used, qs)
    ensures Invariant(Run(db, qs), used + CreatedIds(qs))
    decreases |qs|
  {
    if |qs| > 0 {
      ApplyKeeps(db, used, qs[0]);
      RunKeepsInvariant(Apply(db, qs[0]), Issued(used, qs[0]), qs[1..]);
      assert Issued(used, qs[0]) + CreatedIds(qs[1..]) == used + CreatedIds(qs);
    }
  }

  /** From a consistent store, after any run: every course lists each student
      at most once, each student lists each course at most once, the two lists
      mirror each other, and every average is 0 or within [1, 5]. */
  lemma RunKeepsEnrollmentMirrored(db: Db, qs: seq<Request>)
    requires Invariant(db, db.courses.Keys) && FreshCreates(db.courses.Keys, qs)
    ensures var d := Run(db, qs);
      && (forall c :: c in d.courses ==> NoDup(d.courses[c].enrolledStudents))
      && (forall u :: u in d.users ==> NoDup(d.users[u].enrolledCourses))
      && (forall c, u :: c in d.courses && u in d.users ==>
            (u in d.courses[c].enrolledStudents <==> c in d.users[u].enrolledCourses))
      && (forall c :: c in d.courses ==> d.courses[c].averageRating == 0.0 || 1.0 <= d.courses[c].averageRating <= 5.0)
  {
    RunKeepsInvariant(db, db.courses.Keys, qs);
    var d := Run(db, qs);
    forall c | c in d.courses
      ensures d.courses[c].averageRating == 0.0 || 1.0 <= d.courses[c].averageRating <= 5.0
    {
      Ratings.AverageInRange(d, c);
    }
  }
}

=== FILE: tags.dfy ===
/** The course editor's tag field: the stored tag list is shown joined with
    ", " and read back by splitting on commas, trimming and dropping empty
    pieces (EditCourse.jsx). */
module Tags {
  import opened Common
  import Models

  /** `Array.prototype.join(sep)` on a list of strings. */
  function JoinWith(xs: seq<string>, sep: string): string
    decreases |xs|
  {
    if |xs| == 0 then ""
    else if |xs| == 1 then xs[0]
    else xs[0] + sep + JoinWith(xs[1..], sep)
  }

  predicate CommaFree(s: string)
  {
    ',' !in s
  }

  predicate AllCommaFree(xs: seq<string>)
  {
    forall i :: 0 <= i < |xs| ==> CommaFree(xs[i])
  }

  /** `String.prototype.split(',')`: the comma-free pieces between commas. There
      is always at least one piece, and joining the pieces with commas gives the
      input back. */
  function Split(s: string): (r: seq<string>)
    ensures |r| >= 1
    ensures AllCommaFree(r)
    ensures JoinWith(r, ",") == s
    decreases |s|
  {
    if |s| == 0 then [""]
    else
      var rest := Split(s[1..]);
      if s[0] == ',' then
        assert s == [','] + s[1..];
        [""] + rest
      else
        var r := [[s[0]] + rest[0]] + rest[1..];
        assert r[1..] == rest[1..];
        assert s == [s[0]] + s[1..];
        r
  }

  /** Splitting at the first comma of a string whose head is comma-free. */
  lemma {:induction false} SplitCommaFree(a: string, b: string)
    requires CommaFree(a)
    ensures Split(a + [','] + b) == [a] + Split(b)
    decreases |a|
  {
    if |a| == 0 {
      assert a + [','] + b == [','] + b;
      assert (a + [','] + b)[1..] == b;
    } else {
      var s := a + [','] + b;
      assert s[0] == a[0];
      assert s[1..] == a[1..] + [','] + b;
      SplitCommaFree(a[1..], b);
      assert [a[0]] + a[1..] == a;
    }
  }

  lemma {:induction false} SplitNoComma(a: string)
    requires CommaFree(a)
    ensures Split(a) == [a]
    decreases |a|
  {
    if |a| > 0 {
      SplitNoComma(a[1..]);
      assert [a[0]] + a[1..] == a;
    }
  }

  /** `Split` inverts `JoinWith(_, ",")` on non-empty lists of comma-free
      pieces, so the decomposition `Split` returns is the only one. */
  lemma {:induction false} SplitJoin(parts: seq<string>)
    requires |parts| >= 1 && AllCommaFree(parts)
    ensures Split(JoinWith(parts, ",")) == parts
    decreases |parts|
  {
    if |parts| == 1 {
      SplitNoComma(parts[0]);
    } else {
      var tail := JoinWith(parts[1..], ",");
      assert JoinWith(parts, ",") == parts[0] + [','] + tail;
      SplitCommaFree(parts[0], tail);
      SplitJoin(parts[1..]);
      assert [parts[0]] + parts[1..] == parts;
    }
  }

  /** The tag field's text on load: `tags.join(', ')`. */
  function JoinTags(ts: seq<string>): (s: string)
    ensures |ts| == 0 ==> s == ""
    ensures |ts| == 1 ==> s == ts[0]
  {
    JoinWith(ts, ", ")
  }

  /** The list after `.map(tag => tag.trim()).filter(tag => tag.length > 0)`. */
  function DropEmpty(xs: seq<string>): (r: seq<string>)
    ensures forall i :: 0 <= i < |r| ==> r[i] != "" && r[i] in xs
    ensures |r| <= |xs|
    ensures forall x :: x != "" ==> Count(r, x) == Count(xs, x)
    ensures (forall i :: 0 <= i < |xs| ==> xs[i] != "") ==> r == xs
    decreases |xs|
  {
    if |xs| == 0 then []
    else
      var rest := DropEmpty(xs[1..]);
      if xs[0] == "" then rest
      else
        var r := [xs[0]] + rest;
        assert r[0] == xs[0] && r[1..] == rest;
        r
  }

  /** The filter works piece by piece: filtering a concatenation concatenates
      the filtered parts, so the order of the kept pieces is the input's. */
  lemma {:induction false} DropEmptyAppend(a: seq<string>, b: seq<string>)
    ensures DropEmpty(a + b) == DropEmpty(a) + DropEmpty(b)
    decreases |a|
  {
    if |a| == 0 {
      assert a + b == b;
    } else {
      assert (a + b)[0] == a[0];
      assert (a + b)[1..] == a[1..] + b;
      DropEmptyAppend(a[1..], b);
    }
  }

  /** The tag list sent on save: every piece trimmed, empty ones dropped. */
  function ParseTags(s: string): (r: seq<string>)
    ensures Models.AllTrimmed(r)
    ensures forall i :: 0 <= i < |r| ==> r[i] != "" && CommaFree(r[i])
  {
    var parts := Split(s);
    var trimmed := Models.TrimAll(parts);
    forall i | 0 <= i < |trimmed|
      ensures CommaFree(trimmed[i])
    {
      TrimKeepsCommaFree(parts[i]);
    }
    var r := DropEmpty(trimmed);
    r
  }

  /** What one comma-free piece of the field contributes: its trimmed text,
      unless that is empty. */
  function Piece(p: string): seq<string>
  {
    if Trim(p) == "" then [] else [Trim(p)]
  }

  /** A field without a comma yields its one piece. */
  lemma ParseTagsSingle(a: string)
    requires CommaFree(a)
    ensures ParseTags(a) == Piece(a)
  {
    SplitNoComma(a);
    assert Models.TrimAll([a]) == [Trim(a)];
  }

  /** The text before the first comma yields its piece, followed by the tags of
      the rest, in order. With `ParseTagsSingle` this determines the saved list
      of every field text. */
  lemma ParseTagsCons(a: string, b: string)
    requires CommaFree(a)
    ensures ParseTags(a + [','] + b) == Piece(a) + ParseTags(b)
  {
    SplitCommaFree(a, b);
    var rest := Models.TrimAll(Split(b));
    TrimAllCons(a, Split(b));
    DropEmptyAppend([Trim(a)], rest);
    assert DropEmpty([Trim(a)]) == Piece(a) by {
      assert [Trim(a)][1..] == [];
    }
  }

  lemma TrimAllCons(x: string, xs: seq<string>)
    ensures Models.TrimAll([x] + xs) == [Trim(x)] + Models.TrimAll(xs)
  {
    var l := Models.TrimAll([x] + xs);
    var r := [Trim(x)] + Models.TrimAll(xs);
    assert |l| == |r|;
    forall i | 0 <= i < |l|
      ensures l[i] == r[i]
    {
      if i > 0 {
        assert ([x] + xs)[i] == xs[i - 1];
      }
    }
  }

  lemma TrimKeepsCommaFree(p: string)
    requires CommaFree(p)
    ensures CommaFree(Trim(p))
  {
    var t := Trim(p);
    var i := LeadingSpaces(p);
    var a := p[i..];
    assert t == a[..|a| - TrailingSpaces(a)];
    forall k | 0 <= k < |t|
      ensures t[k] != ','
    {
      assert t[k] == p[i + k];
    }
  }

  predicate Tag(t: string)
  {
    t != "" && IsTrimmed(t) && CommaFree(t)
  }

  /** Every tag but the first, preceded by the space the join inserted. */
  function Spaced(ts: seq<string>): (r: seq<string>)
    requires |ts| >= 1
    ensures |r| == |ts| && r[0] == ts[0]
    ensures forall i :: 1 <= i < |ts| ==> r[i] == " " + ts[i]
  {
    seq(|ts|, i requires 0 <= i < |ts| => if i == 0 then ts[0] else " " + ts[i])
  }

  lemma {:induction false} JoinSpaced(ts: seq<string>)
    requires |ts| >= 1
    ensures JoinWith(ts, ", ") == JoinWith(Spaced(ts), ",")
    decreases |ts|
  {
    if |ts| > 1 {
      JoinSpaced(ts[1..]);
      var sp := Spaced(ts);
      var tailSp := Spaced(ts[1..]);
      assert JoinWith(sp, ",") == ts[0] + "," + JoinWith(sp[1..], ",");
      if |ts| == 2 {
        assert sp[1..] == [" " + ts[1]];
      } else {
        assert JoinWith(sp[1..], ",") == " " + ts[1] + "," + JoinWith(sp[2..], ",");
        assert JoinWith(tailSp, ",") == ts[1] + "," + JoinWith(tailSp[1..], ",");
        assert sp[2..] == tailSp[1..];
      }
    }
  }

  /** The pieces between the commas of a ", "-joined list of tags are comma-free. */
  lemma SpacedCommaFree(ts: seq<string>)
    requires |ts| >= 1
    requires forall i :: 0 <= i < |ts| ==> Tag(ts[i])
    ensures AllCommaFree(Spaced(ts))
  {
    var sp := Spaced(ts);
    forall i | 0 <= i < |sp|
      ensures CommaFree(sp[i])
    {
      if i > 0 {
        assert sp[i] == " " + ts[i];
      }
    }
  }

  /** Trimming those pieces removes exactly the space the join inserted. */
  lemma TrimSpaced(ts: seq<string>)
    requires |ts| >= 1
    requires forall i :: 0 <= i < |ts| ==> Tag(ts[i])
    ensures Models.TrimAll(Spaced(ts)) == ts
  {
    var trimmed := Models.TrimAll(Spaced(ts));
    forall i | 0 <= i < |ts|
      ensures trimmed[i] == ts[i]
    {
      if i == 0 {
        TrimmedFixed(ts[0]);
      } else {
        assert AllSpace(" ");
        TrimAfterSpaces(" ", ts[i]);
      }
    }
  }

  /** Loading then saving the tag field gives back the stored list whenever its
      tags are trimmed, non-empty and comma-free. */
  lemma TagsRoundTrip(ts: seq<string>)
    requires forall i :: 0 <= i < |ts| ==> Tag(ts[i])
    ensures ParseTags(JoinTags(ts)) == ts
  {
    if |ts| == 0 {
      EmptyFieldNoTags();
    } else {
      var text := JoinTags(ts);
      JoinSpaced(ts);
      assert text == JoinWith(Spaced(ts), ",");
      SpacedCommaFree(ts);
      SplitJoin(Spaced(ts));
      assert Split(text) == Spaced(ts);
      TrimSpaced(ts);
      assert Models.TrimAll(Split(text)) == ts;
    }
  }

  /** An empty field saves no tags. */
  lemma EmptyFieldNoTags()
    ensures ParseTags("") == []
  {
    assert Split("") == [""];
    assert Models.TrimAll([""]) == [Trim("")];
    AllSpaceTrimsEmpty("");
  }

  /** Two tags joined by a bare comma are read back as the two tags. */
  lemma CommaSplitsTag(a: string, b: string)
    requires Tag(a) && Tag(b)
    ensures ParseTags(a + [','] + b) == [a, b]
  {
    ParseTagsCons(a, b);
    ParseTagsSingle(b);
    TrimmedFixed(a);
    TrimmedFixed(b);
  }

  /** A one-letter word is a tag. */
  lemma LetterIsTag(c: char)
    requires 'a' <= c <= 'z'
    ensures Tag([c])
  {
    assert !IsSpace(c);
  }

  /** Tags with a comma inside do not survive the round trip: the piece is cut in
      two. */
  lemma CommaTagSplits()
    ensures ParseTags(JoinTags(["a,b"])) == ["a", "b"]
  {
    assert JoinTags(["a,b"]) == ['a'] + [','] + ['b'];
    LetterIsTag('a');
    LetterIsTag('b');
    CommaSplitsTag(['a'], ['b']);
    assert [['a'], ['b']] == ["a", "b"];
  }
}
